=== FILE: README.md ===
# YouTube-style backend controllers in Dafny

This project models the request handlers of an Express/Mongoose video-sharing
backend. Users register, log in and rotate refresh tokens. They publish,
update and delete videos, group videos into playlists, comment, post tweets,
like videos and tweets, and subscribe to channels.

Each handler is a pure function, or a method where the source picks one
element or sorts, over an immutable `Store`. The store holds one map per
collection, the subscription and like records, and two counters. The
counters stand in for ObjectId and JWT generation, so new ids and tokens are
fresh. A handler that can fail returns either `Ok` with its result or `Fail(fault)`.
Most results are a `Step(store', reply)`. The delete handlers give the new
store alone, and the read-only handlers give only the reply. `LogoutUser`
cannot fail and returns the new store directly.
A fault is a thrown `ApiError` (status and message as in the source) or an
uncaught JavaScript or Mongoose error: a CastError, a TypeError, a
validation error, a duplicate key, a failed aggregation or a JWT error. A
failure carries no store, so a rejected request writes nothing.

Modules, one per source file or shared concern:

- `Results`: `Option` and `Result`.
- `ApiErrors`: src/utils/ApiError.js and the failure kinds.
- `Text`: truthiness, `trim`, `toLowerCase` and the ObjectId check.
- `Documents`: the entities, the store and its invariant `Valid`.
- `Users` and `ChannelProfiles`: src/controllers/user.controller.js.
- `Subscriptions`: src/controllers/subscription.controller.js.
- `Likes`: src/controllers/like.controller.js.
- `Videos`: src/controllers/video.controller.js.
- `Playlists`: src/controllers/playlist.controller.js.
- `Comments`: src/controllers/comment.controller.js.
- `Tweets`: src/controllers/tweet.controller.js.

Request fields are `Option<string>`, where `None` is `undefined`. A route
parameter is a string. A guarded parameter is checked with
`isValidObjectId`, which accepts 24 hex digits. An unguarded parameter used
as a query id fails with a CastError unless it is an ObjectId.

## Model

| member | source | states |
|---|---|---|
| ApiErrors.NewApiError | src/utils/ApiError.js:1-24 | The status is kept. The message and errors are kept when given and default to "Something went wrong" and `[]` when undefined. `data` is null and `success` is false. |
| ApiErrors.Reject | src/utils/ApiError.js:2-14 | A thrown ApiError carries exactly the given status and message, no errors, and the error shape. |
| Text.TrimStart | src/controllers/user.controller.js:36-42 | The result is the suffix of the input after its leading ECMAScript whitespace. Everything dropped is whitespace, and the result does not start with whitespace. |
| Text.TrimEnd | src/controllers/user.controller.js:36-42 | The same for the trailing end: the result is a prefix, and only trailing whitespace is dropped. |
| Text.IsBlank | src/controllers/user.controller.js:398-401 | `s.trim()` is empty exactly when every character of `s` is whitespace. |
| Text.ToLower | src/controllers/user.controller.js:84-91 | Lowercasing keeps the length and maps each character independently. |
| Text.ToLowerIdempotent | src/controllers/user.controller.js:405-410 | Lowercasing twice equals lowercasing once, so a stored lowercased username is its own lookup key. |
| Text.CastObjectId | src/controllers/playlist.controller.js:37-40 | The cast to an ObjectId succeeds exactly on the strings `isValidObjectId` accepts. |
| Documents.CastId | src/controllers/comment.controller.js:78-81 | A parameter used directly as a query id gives an id exactly when it is an ObjectId, and a CastError otherwise. |
| Users.GenerateAccessAndRefreshToken | src/controllers/user.controller.js:9-28 | A missing user gives 500. Otherwise both tokens name the user, the user's slot becomes the returned refresh token, and other users are untouched. The invariant is kept and the new token is held by nobody. |
| Users.NewUser | src/controllers/user.controller.js:84-91 | The created document has the username lowercased, the avatar URL, the cover URL or "" when there is none, and no refresh token. |
| Users.RegisterUser | src/controllers/user.controller.js:30-111 | The order of rejections: blank field 400, existing username or email 409, missing avatar 400. Success happens exactly when those pass, all fields are present and the lowercased username is free. The store then gains exactly the new user under a fresh id. |
| Users.RegisterKeepsValid | src/controllers/user.controller.js:84-91 | Registration keeps the store invariant, and the new id was not in use. |
| Users.RegisterMixedCaseDuplicate | src/controllers/user.controller.js:46-52 | A mixed-case spelling of a taken username passes the 409 check. The insert then fails on the unique index. |
| Users.LoginUser | src/controllers/user.controller.js:113-175 | Rejections in order: no identifier 404, no matching user 404, then an absent password makes the hash comparison throw. When every matching user's password differs from the given one, the reply is 404 "Password incorrect", and that reply comes only from a matching user whose password differs. When every matching user's password equals the given one, login succeeds. Success logs in a matching user whose password was given, rotates only that user's slot to the returned token (every other field, user and collection is unchanged), and keeps the invariant. |
| Users.LogoutUser | src/controllers/user.controller.js:177-201 | Only the caller's refresh-token slot is unset. The rest of the store is unchanged, and the invariant is kept. |
| Users.VerifyRefreshToken | src/controllers/user.controller.js:215-221 | Verification succeeds exactly on an unexpired refresh-signed token and yields its subject. Every other input gives a JWT error. |
| Users.RethrowAs404 | src/controllers/user.controller.js:254-256 | A caught error is rethrown as a 404 with its own message, or "Invalid Refresh Token" when that message is empty. |
| Users.RotateRefreshToken | src/controllers/user.controller.js:203-257 | No token gives 401. Any later failure is a 404 with the inner message. Success happens exactly when the presented token is an unexpired refresh token equal to its user's slot. The slot is then rotated to a token different from the presented one; that slot and the token counter are the only parts of the store that change. |
| Users.RefreshAccessTokenAsWritten | src/controllers/user.controller.js:238-251 | As written, a successful refresh replies with no refresh token, exactly when rotation succeeds. |
| Users.RefreshAsWrittenStrandsClient | src/controllers/user.controller.js:238-251 | After the as-written refresh, the token the client holds is refused as expired or used. |
| Users.RefreshAccessToken | src/controllers/user.controller.js:238-251 | The corrected reply carries the refresh token now stored in the user's slot. |
| Users.RefreshReplyRefreshesAgain | src/controllers/user.controller.js:238-251 | The token from a corrected refresh is accepted by the next refresh. |
| Users.LogoutRevokesRefresh | src/controllers/user.controller.js:177-232 | After logout, no token naming the user refreshes. |
| Users.RotatedTokenIsRejected | src/controllers/user.controller.js:231-233 | A token already used for a refresh is refused with 404 "Refresh token is expired or used". |
| Users.LoginRefreshReplay | src/controllers/user.controller.js:113-257 | The login, then refresh, then replay sequence ends with the replayed login token refused. |
| Users.UpdateAccountDetails | src/controllers/user.controller.js:291-317 | Both fields are required (400). A missing caller gets a null reply and no write. An email held by another user is refused. Otherwise exactly the caller's fullName and email change, and the invariant is kept. |
| ChannelProfiles.ProfileOf | src/controllers/user.controller.js:413-468 | The subscriber and subscribed-to counts are the sizes of the two record sets. `isSubscribed` holds exactly when the viewer is among the channel's subscribers. The user's public fields are copied. |
| ChannelProfiles.GetUserChannelProfile | src/controllers/user.controller.js:396-481 | A blank name gives 400 and an unknown lowercased name gives 404. Otherwise the reply is the profile of a user with that lowercased name. |
| ChannelProfiles.ChannelProfileAsWritten | src/controllers/user.controller.js:416-438 | As written, every call fails, and a matched user gets an aggregation error. |
| ChannelProfiles.SubscribeRaisesProfile | src/controllers/user.controller.js:432-446 | One more record from the viewer raises the count by exactly one and sets the viewer's flag. |
| ChannelProfiles.UnsubscribeLowersProfile | src/controllers/user.controller.js:432-446 | Removing that record lowers the count by exactly one and clears the flag. |
| Subscriptions.ToggleSubscription | src/controllers/subscription.controller.js:8-62 | Three 404s, in the source's order. Otherwise the caller's record for the channel flips, the reply says whether it now exists, and no other record changes. |
| Subscriptions.ToggleChangesCountByOne | src/controllers/subscription.controller.js:34-61 | A subscribe adds exactly one record and an unsubscribe removes exactly one. |
| Subscriptions.ToggleTwiceRestores | src/controllers/subscription.controller.js:34-61 | Toggling twice restores the store and gives opposite replies. |
| Likes.UpsertIncrement | src/controllers/like.controller.js:17-34 | The upsert creates the counter at 1 or adds one to it, returns the new value, and leaves other counters alone. |
| Likes.ToggleVideoLike | src/controllers/like.controller.js:8-44 | An invalid id gives 404. Otherwise only the (video, caller) counter changes, by one, and its new value is returned. |
| Likes.ToggleTweetLike | src/controllers/like.controller.js:88-126 | The same for tweets, with "Invalid tweetId". |
| Likes.LikeTweetTimesCounts | src/controllers/like.controller.js:98-116 | `n` tweet likes raise the pair's counter by exactly `n`, leave every other tweet counter alone and leave the video likes untouched. |
| Likes.LikeVideoTimesCounts | src/controllers/like.controller.js:17-34 | `n` likes raise the pair's counter by exactly `n` and leave every other counter alone. The counter never toggles back. |
| Videos.SetIfPresent | src/controllers/video.controller.js:144-155 | An undefined update field keeps the stored value, under Mongoose 7 update semantics (see "## Left out"). |
| Videos.PublishAVideo | src/controllers/video.controller.js:39-81 | The 404s, in order. A failed video upload then makes the read of its `duration` throw a TypeError. Success happens exactly when the checks pass and the video upload succeeded. The new video is the caller's, published, has no views, and gets a fresh id. Nothing else changes. |
| Videos.UpdateVideo | src/controllers/video.controller.js:103-169 | The rejections, in order: invalid id 404, neither title nor description 404, missing video 404, missing thumbnail file 404, failed thumbnail upload 400. Success sets title, description and thumbnail on that video only, and an absent title or description keeps its value. |
| Videos.UpdateVideoIdempotent | src/controllers/video.controller.js:103-169 | Repeating an update leaves the same store and reply. |
| Videos.DeleteVideo | src/controllers/video.controller.js:171-188 | An empty id gives 404 and a malformed one a CastError. A missing video gives 404. Otherwise exactly that video is removed. |
| Videos.PublishThenDeleteRestores | src/controllers/video.controller.js:39-188 | Publishing and then deleting by the new id restores every collection. |
| Videos.TogglePublishStatus | src/controllers/video.controller.js:190-232 | CastError, then 404, then 400 for a non-owner. Otherwise only the flag is negated. |
| Videos.TogglePublishTwiceRestores | src/controllers/video.controller.js:190-232 | Two toggles by the owner restore the store. |
| Playlists.RemoveAll | src/controllers/playlist.controller.js:165-169 | `$pull` removes every occurrence of the id and keeps the count of every other id. |
| Playlists.RemoveAllDistributes | src/controllers/playlist.controller.js:165-169 | Removal distributes over concatenation, so the remaining ids keep their order. |
| Playlists.RemoveAbsentIsIdentity | src/controllers/playlist.controller.js:165-169 | Pulling an id that is not in the list changes nothing. |
| Playlists.Dedup | src/controllers/playlist.controller.js:48-55 | The lookup's result has no repeats and has the same elements as its input. |
| Playlists.DistinctCardinality | src/controllers/playlist.controller.js:57-59 | A list without repeats has as many elements as its set, so `$size` counts distinct videos. |
| Playlists.Summarize | src/controllers/playlist.controller.js:48-74 | `totalVideos` is the number of distinct existing videos referenced. `totalViews` sums their views, and name and description are kept. |
| Playlists.AddDuplicateKeepsSummary | src/controllers/playlist.controller.js:48-74 | Pushing a video the playlist already holds changes neither total. |
| Playlists.CreatePlaylist | src/controllers/playlist.controller.js:9-31 | Name and description are required (404). The new playlist is the caller's, is empty, and gets a fresh id. |
| Playlists.GetUserPlaylists | src/controllers/playlist.controller.js:33-89 | An invalid id gives 404. Otherwise there is one summary for each playlist the user owns and none for other playlists. |
| Playlists.AddVideoToPlaylist | src/controllers/playlist.controller.js:106-155 | The three 401s, in order. Otherwise the video id is appended and the rest of the list is kept. |
| Playlists.RemoveVideoFromPlaylist | src/controllers/playlist.controller.js:157-178 | Empty id 404, malformed ids CastError, missing playlist 404. Otherwise the list becomes `RemoveAll` of the old list: every occurrence is pulled, the other ids keep their order and count, and a video absent from the list leaves the store unchanged. |
| Playlists.AddThenRemove | src/controllers/playlist.controller.js:106-178 | Adding and then removing a video gives the original list with that video pulled. |
| Playlists.UpdatePlaylist | src/controllers/playlist.controller.js:199-232 | Empty id 404, malformed id CastError, missing playlist 404. Otherwise the given fields are set, absent ones are kept, and nothing else changes. |
| Playlists.UpdatePlaylistIdempotent | src/controllers/playlist.controller.js:208-217 | Repeating an update gives the same store and reply as the first one. |
| Playlists.UpdatePlaylistWithoutFieldsKeepsStore | src/controllers/playlist.controller.js:208-217 | An update with neither name nor description writes nothing. |
| Playlists.DeletePlaylist | src/controllers/playlist.controller.js:180-197 | The same rejections. Otherwise exactly that playlist is removed. |
| Playlists.CreateThenDeleteRestores | src/controllers/playlist.controller.js:9-197 | Creating and then deleting by the new id restores the playlists. |
| Comments.AddComment | src/controllers/comment.controller.js:35-67 | 401, then 404 for missing content, then 404 for a missing video. Otherwise the new comment names that video and the caller. |
| Comments.UpdateComment | src/controllers/comment.controller.js:69-102 | Missing content is rejected with status 200 before the id is cast. Then a CastError or 404. Otherwise only the content changes. |
| Comments.UpdateCommentIdempotent | src/controllers/comment.controller.js:69-102 | Repeating an update changes nothing further. |
| Comments.DeleteComment | src/controllers/comment.controller.js:104-120 | A CastError, or 404 for a missing comment. Otherwise exactly that comment is removed. |
| Comments.AddThenDeleteRestores | src/controllers/comment.controller.js:35-120 | Adding and then deleting by the new id restores the comments. |
| Tweets.CreateTweet | src/controllers/tweet.controller.js:8-35 | Content is required (401). The tweet is the caller's, is stamped with the given time, and gets a fresh id. |
| Tweets.CreateTweetKeepsValid | src/controllers/tweet.controller.js:18-23 | Creating a tweet keeps the store invariant and uses an unused id. |
| Tweets.InsertNewestFirst | src/controllers/tweet.controller.js:106-110 | Inserting a row keeps the list newest first and adds exactly that row. |
| Tweets.GetUserTweets | src/controllers/tweet.controller.js:37-127 | An invalid id is rejected with status 200. Otherwise the reply holds exactly the user's tweets, each once, newest first. |
| Tweets.RowsAreOwnedTweets | src/controllers/tweet.controller.js:48-54 | A row is in the reply exactly when it is one of the user's tweets, and then it appears once. |
| Tweets.GetUserTweetsAsWritten | src/controllers/tweet.controller.js:73-96 | As written, any user with a tweet gets an aggregation error. Only an empty list can succeed. |
| Tweets.AsWrittenLosesTweets | src/controllers/tweet.controller.js:73-96 | For a user with a tweet, the as-written handler fails while the corrected listing contains that tweet. |
| Tweets.UpdateTweet | src/controllers/tweet.controller.js:131-161 | Empty id 404, missing content 404, malformed id CastError, missing tweet 404. Otherwise only the content changes. |
| Tweets.UpdateKeepsOwnerAndTime | src/controllers/tweet.controller.js:144-152 | An update keeps every tweet's owner and creation time, so listings keep their order. |
| Tweets.DeleteTweet | src/controllers/tweet.controller.js:163-180 | Empty id 404, malformed id CastError, missing tweet 404. Otherwise exactly that tweet is removed. |
| Tweets.CreateThenDeleteRestores | src/controllers/tweet.controller.js:8-180 | Creating and then deleting by the new id restores the tweets. |

## Left out

- asyncHandler (src/utils/asyncHandler.js) as written returns `undefined`, not a middleware. The model describes what each handler body does. Routing, `res` and the JSON envelope (ApiResponse) are not modelled.
- JWT signing and verification, and password hashing, are opaque. A token is a record with its secret kind, subject and a serial. `expired` is a parameter standing for the clock. A password check is equality with the stored value. Cookie options are not modelled.
- File uploads and the upload service are parameters. A path is `Option<string>`, an upload result is `Option<Upload>`, and a missing file or failed upload is `None`. The TypeError from `req.files?.avatar[0]` when a multipart request has no avatar entry is modelled as a missing avatar (400). Likewise, in publishAVideo, `req.files?.videoFile[0]` and `req.files?.thumbnail[0]` throw a TypeError when a multipart request lacks that entry; the model answers that case with the 404 for a missing file.
- ObjectIds are 24-hex-digit strings only. The 12-character form `isValidObjectId` also accepts is not modelled.
- `toLowerCase` is modelled on ASCII letters only, and `trim` on the ECMAScript whitespace set. Request fields that are not strings (numbers, arrays) are not modelled.
- The user, video, playlist, comment, tweet, like and subscription schemas are not part of this model. They are assumed as follows: username and email unique; the username field has no `lowercase` or `trim` setter, so Mongoose does not rewrite the value in the registration `$or` filter or in the profile `$match`. Users.RegisterMixedCaseDuplicate depends on this: with a `lowercase` setter the lookup would find the taken name and reply 409. Users.NewUser's untrimmed stored username and ChannelProfiles.GetUserChannelProfile's untrimmed match depend on it too; fullName, email, password and username required; new videos have zero views; the Video schema does not require `thumbnail`; tweets carry a `createdAt` timestamp. The Like schema declares `videoId`, `owner` and `liked`, and the Subscription schema declares `channelId` and `owner`, so the filters on those fields are kept rather than stripped by Mongoose's `strictQuery`. At most one subscription record and one like record exist per pair, so the relations are sets of pairs and `$size` counts pairs. `updatedAt` and other timestamps are not tracked.
- Token freshness is assumed: every issued token is distinct, because the model draws a new serial for each. jsonwebtoken signs `{_id, iat, exp}` with `iat` in whole seconds and HMAC signing is deterministic, so two rotations for the same user within one second can produce the identical string. Users.RotatedTokenIsRejected, Users.LoginRefreshReplay, and the freshness clauses of Users.GenerateAccessAndRefreshToken and Users.RotateRefreshToken (the new token is held by nobody, and it differs from the presented one) depend on this assumption. Within one second, a replayed token would be accepted.
- Faults of the database itself (lost connection, timeouts) are not modelled. So createTweet's `catch` that turns such a fault into a 500, and the `!document` checks after a successful create or update that cannot fire, are not modelled.
- Concurrency is not modelled: requests are applied one at a time. That covers the find-then-write races in the toggles and the check-then-insert in registration.
- Users.LoginUser: when several users match the username-or-email filter, `findOne` returns one of them. The model picks one nondeterministically, so "Password incorrect" is stated for some matching user, not a specific one.
- ChannelProfiles.GetUserChannelProfile: with several users of the same lowercased name, the one returned is left open. The aggregation's `$first` on duplicate usernames is not modelled.
- Tweets.GetUserTweets: the rows hold id, content and createdAt. `ownerDetails`, `likesCount` and `isLiked` are not modelled. Rows with equal `createdAt` are in an unspecified order, as `$sort` leaves them.
- Playlists.GetUserPlaylists: the summary's `updatedAt` is not modelled. Rows are keyed by playlist id, because the aggregation's output order is unspecified.
- Likes.ToggleTweetLike: the source upserts into the Tweet collection, and the model keeps those counters in their own map instead, because the Tweet schema is not part of this model. The model therefore leaves the `tweets` map unchanged on a like, which the source does not. If the schema keeps the filter fields, the upsert inserts a new tweet with no content, owned by the liker. If `strictQuery` strips them, it matches or creates one of the liker's own tweets. Either way getUserTweets, updateTweet and deleteTweet then see that document. So after tweet likes, a liker's tweet listing in the model is not faithful to the source.
- Videos.PublishAVideo: a failed thumbnail upload still publishes the video, with no thumbnail, because `thumbnail?.url` is `undefined` and the model assumes the Video schema does not require `thumbnail`. If the schema does require it, the source fails that request with a validation error instead, and the model's success condition is too wide by exactly that case.
- Subscriptions.ToggleSubscription: `existingSubscription.remove()` is modelled as a delete. That is Mongoose 6 or earlier: Mongoose 7 removed `Document.prototype.remove`, so an unsubscribe would throw a TypeError instead.
- Videos.SetIfPresent, Videos.UpdateVideo, Playlists.UpdatePlaylist (and Playlists.UpdatePlaylistWithoutFieldsKeepsStore): an undefined `title`, `description` or `name` in `$set` is assumed to be dropped, so the stored value is kept. That is the default of Mongoose 7 and later. Under Mongoose 6 or earlier, without `omitUndefined`, the field is written as null and so cleared. This assumes the opposite Mongoose version from the `remove()` assumption above, and the source does not pin its version, so the two cannot both hold.
- Not modelled, because they are outside the modelled core: changeCurrentPassword, getCurrentUser, updateUserAvatar, updateUserCoverImage, getWatchHistory, getAllVideos, getVideoById, getPlaylistById, getVideoComments, toggleCommentLike, getLikedVideos, getUserChannelSubscribers and getSubscribedChannels. Several of these are empty stubs in the source.

## Findings

| source | as written | input that shows it | evidently intended | confidence | as-written member | corrected member |
|---|---|---|---|---|---|---|
| src/controllers/user.controller.js:240-250 | refreshAccessToken destructures `newRefreshToken` from the token generator, which returns `refreshToken`; the body omits the refresh token (`undefined`) and Express's `res.cookie` stores the literal string "undefined", while the slot has been rotated; the client's next refresh presents "undefined" and fails with 404 "jwt malformed" | any refresh with a valid stored refresh token | send the rotated refresh token, so the client can refresh again | high (not executed) | Users.RefreshAccessTokenAsWritten | Users.RefreshAccessToken |
| src/controllers/user.controller.js:420-438 | the profile lookups are stored as `"subscribers "` and `"subscribedTo "` (trailing spaces), while `$size` reads `"$subscribers"` and `"$subscribedTo"`, which are missing | any existing username, e.g. a store with one user named "alice" and the path `/c/alice` | counts and flag computed from the two lookups | high (not executed) | ChannelProfiles.ChannelProfileAsWritten | ChannelProfiles.GetUserChannelProfile |
| src/controllers/tweet.controller.js:78-95 | the likes lookup is stored as `likedDetails`, but `$size` reads `$likesDetails`, which is missing | a user with one tweet | list that user's tweets, newest first | high (not executed) | Tweets.GetUserTweetsAsWritten | Tweets.GetUserTweets |

=== FILE: api_error.dfy ===
/** The shared error record (src/utils/ApiError.js) and the two ways a handler
    can fail: by throwing an ApiError, or by letting some other JavaScript
    error escape to Express. */
module ApiErrors {
  import opened Results

  const DefaultMessage: string := "Something went wrong"

  /** An ApiError as its constructor leaves it. `data` is always JavaScript's
      null (`None`) and `success` is always false; the captured stack trace is
      not modelled. */
  datatype ApiError = ApiError(
    statusCode: int,
    data: Option<string>,
    message: string,
    success: bool,
    errors: seq<string>
  )

  /** The shape every constructed ApiError has, whatever the arguments. */
  predicate IsErrorShaped(e: ApiError) {
    !e.success && e.data == None
  }

  /** `new ApiError(statusCode, message, errors)`. A JavaScript default
      parameter applies only when the argument is `undefined`, modelled by
      `None`; an explicit empty message is kept as given. */
  function NewApiError(statusCode: int, message: Option<string> := None, errors: Option<seq<string>> := None): (e: ApiError)
    ensures e.statusCode == statusCode
    ensures message.Some? ==> e.message == message.value
    ensures message.None? ==> e.message == DefaultMessage
    ensures errors.Some? ==> e.errors == errors.value
    ensures errors.None? ==> e.errors == []
    ensures IsErrorShaped(e)
  {
    ApiError(
      statusCode,
      None,
      match message case Some(m) => m case None => DefaultMessage,
      false,
      match errors case Some(es) => es case None => []
    )
  }

  /** Errors that are not ApiErrors but can escape a handler body. */
  datatype Cause =
    | CastError          // Mongoose could not cast a string to an ObjectId
    | TypeError          // a property read on null or undefined
    | ValidationError    // a required schema field was missing on create
    | DuplicateKey       // a unique index rejected an insert or update
    | HashArgumentError  // the password comparison was given no password
    | PipelineError      // an aggregation operator met a missing field
    | JwtError(reason: string)

  datatype Fault = Thrown(error: ApiError) | Uncaught(cause: Cause)

  /** The `message` property of a failure, as a `catch` block would read it. */
  function MessageOf(f: Fault): string {
    match f
    case Thrown(e) => e.message
    case Uncaught(JwtError(reason)) => reason
    case Uncaught(CastError) => "Cast to ObjectId failed"
    case Uncaught(TypeError) => "Cannot read properties of null"
    case Uncaught(ValidationError) => "Validation failed"
    case Uncaught(DuplicateKey) => "E11000 duplicate key error"
    case Uncaught(HashArgumentError) => "data and hash arguments required"
    case Uncaught(PipelineError) => "The argument to $size must be an array"
  }

  /** `throw new ApiError(statusCode, message)` inside a handler. */
  function Reject<T>(statusCode: int, message: string): (r: Result<T, Fault>)
    ensures r.Fail? && r.error.Thrown?
    ensures r.error.error.statusCode == statusCode && r.error.error.message == message
    ensures r.error.error.errors == [] && IsErrorShaped(r.error.error)
  {
    Fail(Thrown(NewApiError(statusCode, Some(message))))
  }
}

=== FILE: channel_profile.dfy ===
/** `getUserChannelProfile` (src/controllers/user.controller.js:396-481): the
    derived view of a channel. Its counts and its `isSubscribed` flag are
    computed from subscription records with fields `channel` and
    `subscriber`. */
module ChannelProfiles {
  import opened Results
  import opened ApiErrors
  import opened Text
  import opened Documents

  /** The fields the final `$project` stage keeps. */
  datatype ChannelProfile = ChannelProfile(
    fullName: string,
    username: string,
    email: string,
    avatar: string,
    coverImage: string,
    subscribersCount: nat,
    channelsSubcribedToCount: nat,
    isSubscribed: bool
  )

  /** The first `$lookup`: records whose `channel` is the user. */
  function SubscribersOf(subs: set<Subscription>, channel: Id): set<Subscription> {
    set x | x in subs && x.channel == channel
  }

  /** The second `$lookup`: records whose `subscriber` is the user. */
  function SubscribedToBy(subs: set<Subscription>, subscriber: Id): set<Subscription> {
    set x | x in subs && x.subscriber == subscriber
  }

  /** The `$addFields` and `$project` stages on one matched user, reading the
      two lookups under the names `subscribers` and `subscribedTo`. The
      source writes those names with a trailing space; see
      `ChannelProfileAsWritten`. */
  function ProfileOf(s: Store, id: Id, viewer: Id): (p: ChannelProfile)
    requires id in s.users
    ensures p.subscribersCount == |SubscribersOf(s.subscriptions, id)|
    ensures p.channelsSubcribedToCount == |SubscribedToBy(s.subscriptions, id)|
    ensures p.isSubscribed <==> viewer in (set x | x in SubscribersOf(s.subscriptions, id) :: x.subscriber)
    ensures p.username == s.users[id].username && p.email == s.users[id].email
    ensures p.fullName == s.users[id].fullName
    ensures p.avatar == s.users[id].avatar && p.coverImage == s.users[id].coverImage
  {
    var u := s.users[id];
    ChannelProfile(u.fullName, u.username, u.email, u.avatar, u.coverImage,
                   |SubscribersOf(s.subscriptions, id)|,
                   |SubscribedToBy(s.subscriptions, id)|,
                   Subscription(viewer, id) in s.subscriptions)
  }

  /** `getUserChannelProfile` with the lookups read under the names they are
      written to. A blank username gives 400; the match is on the username
      lowercased (not trimmed, assuming the schema applies no `lowercase` or
      `trim` setter to the filter) and no match gives 404. When several users
      could match, the first in store order is returned; which one is left
      open here. */
  method GetUserChannelProfile(s: Store, username: string, viewer: Id) returns (r: Result<ChannelProfile, Fault>)
    ensures IsBlank(username) ==> r == Reject(400, "Username is missing")
    ensures !IsBlank(username) && !UsernameTaken(s.users, ToLower(username)) ==>
      r == Reject(404, "Channel does not exists")
    ensures r.Ok? <==> !IsBlank(username) && UsernameTaken(s.users, ToLower(username))
    ensures r.Ok? ==>
      exists id :: id in s.users && s.users[id].username == ToLower(username) && r.value == ProfileOf(s, id, viewer)
  {
    if IsBlank(username) {
      return Reject(400, "Username is missing");
    }
    var name := ToLower(username);
    if !UsernameTaken(s.users, name) {
      return Reject(404, "Channel does not exists");
    }
    var id :| id in s.users && s.users[id].username == name;
    return Ok(ProfileOf(s, id, viewer));
  }

  /** `getUserChannelProfile` as written: the lookups are stored as
      `"subscribers "` and `"subscribedTo "` (trailing spaces), so `$size`
      reads a missing field and the aggregation fails for every matched
      user. Only the 400 and 404 paths complete. */
  function ChannelProfileAsWritten(s: Store, username: string, viewer: Id): (r: Result<ChannelProfile, Fault>)
    ensures r.Fail?
    ensures IsBlank(username) ==> r == Reject(400, "Username is missing")
    ensures !IsBlank(username) && !UsernameTaken(s.users, ToLower(username)) ==>
      r == Reject(404, "Channel does not exists")
    ensures !IsBlank(username) && UsernameTaken(s.users, ToLower(username)) ==>
      r == Fail(Uncaught(PipelineError))
  {
    if IsBlank(username) then
      Reject(400, "Username is missing")
    else if !UsernameTaken(s.users, ToLower(username)) then
      Reject(404, "Channel does not exists")
    else
      Fail(Uncaught(PipelineError))
  }

  /** The derived view follows the records: one more subscription record
      from `viewer` to `channel` raises the channel's subscriber count by
      exactly one and makes `isSubscribed` true for that viewer. */
  lemma SubscribeRaisesProfile(s: Store, channel: Id, viewer: Id)
    requires channel in s.users
    requires Subscription(viewer, channel) !in s.subscriptions
    ensures var s' := s.(subscriptions := s.subscriptions + {Subscription(viewer, channel)});
      && ProfileOf(s', channel, viewer).isSubscribed
      && ProfileOf(s', channel, viewer).subscribersCount == ProfileOf(s, channel, viewer).subscribersCount + 1
  {
    var rec := Subscription(viewer, channel);
    var s' := s.(subscriptions := s.subscriptions + {rec});
    assert SubscribersOf(s'.subscriptions, channel) == SubscribersOf(s.subscriptions, channel) + {rec};
    assert rec in SubscribersOf(s'.subscriptions, channel);
  }

  /** Removing the record lowers the count by exactly one and clears the
      viewer's flag. */
  lemma UnsubscribeLowersProfile(s: Store, channel: Id, viewer: Id)
    requires channel in s.users
    requires Subscription(viewer, channel) in s.subscriptions
    ensures var s' := s.(subscriptions := s.subscriptions - {Subscription(viewer, channel)});
      && !ProfileOf(s', channel, viewer).isSubscribed
      && ProfileOf(s', channel, viewer).subscribersCount + 1 == ProfileOf(s, channel, viewer).subscribersCount
  {
    var rec := Subscription(viewer, channel);
    var s' := s.(subscriptions := s.subscriptions - {rec});
    assert SubscribersOf(s.subscriptions, channel) == SubscribersOf(s'.subscriptions, channel) + {rec};
  }
}

=== FILE: comments.dfy ===
/** src/controllers/comment.controller.js: comments on videos. */
module Comments {
  import opened Results
  import opened ApiErrors
  import opened Text
  import opened Documents

  /** `addComment`. Checks, in order and before writing: the video id is an
      ObjectId (401), content is given (404), the video exists (404). The new
      comment names that video and the caller. */
  function AddComment(s: Store, caller: Id, videoId: string, content: Option<string>): (r: Result<Step<Id>, Fault>)
    ensures !IsValidObjectId(videoId) ==> r == Reject(401, "Invalid videoId")
    ensures IsValidObjectId(videoId) && !Truthy(content) ==> r == Reject(404, "Content is required")
    ensures (IsValidObjectId(videoId) && Truthy(content)
             && CastObjectId(videoId).value !in s.videos) ==> r == Reject(404, "Video does not found")
    ensures r.Ok? <==> IsValidObjectId(videoId) && Truthy(content) && CastObjectId(videoId).value in s.videos
    ensures r.Ok? ==>
      && r.value.reply == s.nextId
      && r.value.store == s.(comments := s.comments[s.nextId := Comment(content.value, CastObjectId(videoId).value, caller)],
                             nextId := s.nextId + 1)
  {
    match CastObjectId(videoId)
    case None => Reject(401, "Invalid videoId")
    case Some(vid) =>
      if !Truthy(content) then Reject(404, "Content is required")
      else if vid !in s.videos then Reject(404, "Video does not found")
      else Ok(Step(s.(comments := s.comments[s.nextId := Comment(content.value, vid, caller)],
                      nextId := s.nextId + 1), s.nextId))
  }

  /** `updateComment`: missing content is rejected with status 200 before the
      id is looked at; a malformed id is a CastError, a missing comment 404.
      Only the content changes; there is no owner check. */
  function UpdateComment(s: Store, commentId: string, content: Option<string>): (r: Result<Step<Id>, Fault>)
    ensures !Truthy(content) ==> r == Reject(200, "Content is required")
    ensures Truthy(content) && !IsValidObjectId(commentId) ==> r == Fail(Uncaught(CastError))
    ensures (Truthy(content) && IsValidObjectId(commentId)
             && CastObjectId(commentId).value !in s.comments) ==> r == Reject(404, "Comment not found")
    ensures r.Ok? <==> Truthy(content) && IsValidObjectId(commentId) && CastObjectId(commentId).value in s.comments
    ensures r.Ok? ==>
      var cid := CastObjectId(commentId).value;
      && r.value.reply == cid
      && r.value.store == s.(comments := s.comments[cid := s.comments[cid].(content := content.value)])
  {
    if !Truthy(content) then Reject(200, "Content is required")
    else
      var cid :- CastId(commentId);
      if cid !in s.comments then Reject(404, "Comment not found")
      else Ok(Step(s.(comments := s.comments[cid := s.comments[cid].(content := content.value)]), cid))
  }

  /** Writing the same content twice leaves the store as the first write did. */
  lemma UpdateCommentIdempotent(s: Store, commentId: string, content: Option<string>)
    requires UpdateComment(s, commentId, content).Ok?
    ensures var s1 := UpdateComment(s, commentId, content).value.store;
      UpdateComment(s1, commentId, content) == UpdateComment(s, commentId, content)
  {
    var cid := CastObjectId(commentId).value;
    var s1 := UpdateComment(s, commentId, content).value.store;
    assert s1.comments[cid := s1.comments[cid].(content := content.value)] == s1.comments;
  }

  /** `deleteComment`: a malformed id is a CastError, a missing comment 404;
      otherwise exactly that comment is removed. */
  function DeleteComment(s: Store, commentId: string): (r: Result<Store, Fault>)
    ensures !IsValidObjectId(commentId) ==> r == Fail(Uncaught(CastError))
    ensures IsValidObjectId(commentId) && CastObjectId(commentId).value !in s.comments ==>
      r == Reject(404, "Comment not found")
    ensures r.Ok? <==> IsValidObjectId(commentId) && CastObjectId(commentId).value in s.comments
    ensures r.Ok? ==> r.value == s.(comments := s.comments - {CastObjectId(commentId).value})
  {
    var cid :- CastId(commentId);
    if cid !in s.comments then Reject(404, "Comment not found")
    else Ok(s.(comments := s.comments - {cid}))
  }

  /** Adding a comment and deleting it by its new id restores the comments. */
  lemma AddThenDeleteRestores(s: Store, caller: Id, videoId: string, content: Option<string>, newId: string)
    requires Valid(s)
    requires AddComment(s, caller, videoId, content).Ok?
    requires CastObjectId(newId) == Some(AddComment(s, caller, videoId, content).value.reply)
    ensures var s1 := AddComment(s, caller, videoId, content).value.store;
      DeleteComment(s1, newId) == Ok(s.(nextId := s1.nextId))
  {
    var s1 := AddComment(s, caller, videoId, content).value.store;
    assert s.nextId !in s.comments;
    assert s1.comments - {s.nextId} == s.comments;
  }
}

=== FILE: documents.dfy ===
/** The document store the controllers read and write, as immutable maps and
    sets keyed by ObjectId, together with the fresh-id and fresh-token
    counters that stand in for ObjectId and JWT generation. */
module Documents {
  import opened Results
  import opened ApiErrors
  import opened Text

  /** An ObjectId, as the number its 24 hex digits spell. */
  type Id = nat

  datatype TokenKind = AccessKind | RefreshKind

  /** A signed JWT, opaque to the controllers: the secret that signed it
      (its kind), the user id in its payload, and a serial that makes every
      issued token distinct. */
  datatype Token = Token(kind: TokenKind, subject: Id, serial: nat)

  /** A user document. `password` stands for the stored hash; comparing a
      candidate against it is modelled as equality. `refreshToken` is the
      single refresh-token slot; `None` is the unset field. */
  datatype User = User(
    username: string,
    email: string,
    fullName: string,
    password: string,
    avatar: string,
    coverImage: string,
    refreshToken: Option<Token>
  )

  /** What the upload service returns for a stored file. */
  datatype Upload = Upload(url: string, duration: real)

  datatype Video = Video(
    title: string,
    description: string,
    videoFile: Option<string>,
    thumbnail: Option<string>,
    duration: real,
    owner: Id,
    isPublished: bool,
    views: nat
  )

  datatype Playlist = Playlist(name: string, description: string, owner: Id, videos: seq<Id>)

  datatype Comment = Comment(content: string, video: Id, owner: Id)

  datatype Tweet = Tweet(content: string, owner: Id, createdAt: int)

  /** The record the subscription toggle writes: fields `channelId`, `owner`. */
  datatype SubscriptionEdge = SubscriptionEdge(channelId: Id, owner: Id)

  /** The record the channel profile reads: fields `subscriber`, `channel`.
      Nothing in the controllers writes this shape, so it is kept apart from
      `SubscriptionEdge`. */
  datatype Subscription = Subscription(subscriber: Id, channel: Id)

  /** The filter of a like upsert: the liked document and the liker. */
  datatype LikeKey = LikeKey(target: Id, owner: Id)

  datatype Store = Store(
    users: map<Id, User>,
    videos: map<Id, Video>,
    playlists: map<Id, Playlist>,
    comments: map<Id, Comment>,
    tweets: map<Id, Tweet>,
    subscriptionEdges: set<SubscriptionEdge>,
    subscriptions: set<Subscription>,
    videoLikes: map<LikeKey, nat>,
    tweetLikes: map<LikeKey, nat>,
    nextId: nat,
    nextSerial: nat
  )

  /** A successful handler: the store after its write and the body it sends. */
  datatype Step<+R> = Step(store: Store, reply: R)

  /** A refresh-token slot as token generation leaves it: a refresh token
      naming its own user, issued before the current serial counter. */
  predicate SlotIssuedFor(slot: Option<Token>, id: Id, nextSerial: nat) {
    slot.Some? ==> slot.value.kind == RefreshKind && slot.value.subject == id && slot.value.serial < nextSerial
  }

  /** The store invariant: every document id and every stored token lies
      below its counter, so ids and tokens taken from the counters are fresh. */
  predicate Valid(s: Store) {
    && (forall id :: id in s.users ==> id < s.nextId)
    && (forall id :: id in s.videos ==> id < s.nextId)
    && (forall id :: id in s.playlists ==> id < s.nextId)
    && (forall id :: id in s.comments ==> id < s.nextId)
    && (forall id :: id in s.tweets ==> id < s.nextId)
    && (forall id :: id in s.users ==> SlotIssuedFor(s.users[id].refreshToken, id, s.nextSerial))
  }

  /** Some stored user has exactly this username. */
  predicate UsernameTaken(users: map<Id, User>, name: string) {
    exists id :: id in users && users[id].username == name
  }

  /** A route parameter used directly as a query id: Mongoose throws a
      CastError for a string that is not an ObjectId. */
  function CastId(p: string): (r: Result<Id, Fault>)
    ensures r.Ok? <==> IsValidObjectId(p)
    ensures r.Fail? ==> r.error == Uncaught(CastError)
  {
    match CastObjectId(p)
    case Some(id) => Ok(id)
    case None => Fail(Uncaught(CastError))
  }

  lemma InsertUserKeepsValid(s: Store, u: User)
    requires Valid(s) && u.refreshToken == None
    ensures Valid(s.(users := s.users[s.nextId := u], nextId := s.nextId + 1))
  {
  }
}

=== FILE: likes.dfy ===
/** `toggleVideoLike` and `toggleTweetLike` (src/controllers/like.controller.js):
    despite their names, both are an upsert that increments a `liked`
    counter on the document matched by `(target, owner)`; nothing ever
    decrements it. */
module Likes {
  import opened Results
  import opened ApiErrors
  import opened Text
  import opened Documents

  /** The upserted counters and the `liked` value of the returned document. */
  datatype Counted = Counted(likes: map<LikeKey, nat>, liked: nat)

  /** `findOneAndUpdate(k, { $set: k, $inc: { liked: 1 } }, { upsert: true, new: true })`:
      a missing document is created with `liked` 1, an existing one gains one;
      the value returned is the one after the increment. */
  function UpsertIncrement(likes: map<LikeKey, nat>, k: LikeKey): (r: Counted)
    ensures r.likes.Keys == likes.Keys + {k}
    ensures k !in likes ==> r.liked == 1
    ensures k in likes ==> r.liked == likes[k] + 1
    ensures r.likes[k] == r.liked
    ensures forall other :: other in likes && other != k ==> r.likes[other] == likes[other]
  {
    var liked := (if k in likes then likes[k] else 0) + 1;
    Counted(likes[k := liked], liked)
  }

  /** `toggleVideoLike`: an invalid video id gives 404 and nothing changes.
      The video itself is not looked up, so a well-formed id of a missing
      video still gets a counter. */
  function ToggleVideoLike(s: Store, caller: Id, videoId: string): (r: Result<Step<nat>, Fault>)
    ensures !IsValidObjectId(videoId) ==> r == Reject(404, "Invalid objectId")
    ensures IsValidObjectId(videoId) ==> r.Ok?
    ensures r.Ok? ==>
      var k := LikeKey(CastObjectId(videoId).value, caller);
      var likes := r.value.store.videoLikes;
      && r.value.store == s.(videoLikes := likes)
      && likes.Keys == s.videoLikes.Keys + {k}
      && r.value.reply == likes[k]
      && r.value.reply == (if k in s.videoLikes then s.videoLikes[k] + 1 else 1)
      && (forall other :: other in s.videoLikes && other != k ==> likes[other] == s.videoLikes[other])
  {
    match CastObjectId(videoId)
    case None => Reject(404, "Invalid objectId")
    case Some(video) =>
      var c := UpsertIncrement(s.videoLikes, LikeKey(video, caller));
      Ok(Step(s.(videoLikes := c.likes), c.liked))
  }

  /** `toggleTweetLike`: the same upsert on the tweet collection, keyed by
      `(tweetId, owner)`. The `!tweet` check after an upsert that returns the
      new document cannot fire. */
  function ToggleTweetLike(s: Store, caller: Id, tweetId: string): (r: Result<Step<nat>, Fault>)
    ensures !IsValidObjectId(tweetId) ==> r == Reject(404, "Invalid tweetId")
    ensures IsValidObjectId(tweetId) ==> r.Ok?
    ensures r.Ok? ==>
      var k := LikeKey(CastObjectId(tweetId).value, caller);
      var likes := r.value.store.tweetLikes;
      && r.value.store == s.(tweetLikes := likes)
      && likes.Keys == s.tweetLikes.Keys + {k}
      && r.value.reply == likes[k]
      && r.value.reply == (if k in s.tweetLikes then s.tweetLikes[k] + 1 else 1)
      && (forall other :: other in s.tweetLikes && other != k ==> likes[other] == s.tweetLikes[other])
  {
    match CastObjectId(tweetId)
    case None => Reject(404, "Invalid tweetId")
    case Some(tweet) =>
      var c := UpsertIncrement(s.tweetLikes, LikeKey(tweet, caller));
      Ok(Step(s.(tweetLikes := c.likes), c.liked))
  }

  /** The store after the same caller likes the same video `n` times. */
  function LikeVideoTimes(s: Store, caller: Id, videoId: string, n: nat): Store
    requires IsValidObjectId(videoId)
  {
    if n == 0 then s else ToggleVideoLike(LikeVideoTimes(s, caller, videoId, n - 1), caller, videoId).value.store
  }

  /** The counter is monotone, not a toggle: `n` calls raise it by exactly
      `n` and leave every other pair's counter alone. */
  lemma {:induction false} LikeVideoTimesCounts(s: Store, caller: Id, videoId: string, n: nat)
    requires IsValidObjectId(videoId)
    ensures var k := LikeKey(CastObjectId(videoId).value, caller);
      var likes := LikeVideoTimes(s, caller, videoId, n).videoLikes;
      && (n > 0 ==> k in likes && likes[k] == (if k in s.videoLikes then s.videoLikes[k] else 0) + n)
      && (forall other :: other in s.videoLikes && other != k ==> other in likes && likes[other] == s.videoLikes[other])
  {
    if n > 0 {
      LikeVideoTimesCounts(s, caller, videoId, n - 1);
    }
  }

  /** The store after the same caller likes the same tweet `n` times. */
  function LikeTweetTimes(s: Store, caller: Id, tweetId: string, n: nat): Store
    requires IsValidObjectId(tweetId)
  {
    if n == 0 then s else ToggleTweetLike(LikeTweetTimes(s, caller, tweetId, n - 1), caller, tweetId).value.store
  }

  /** The tweet counter is monotone too: `n` calls raise it by exactly `n`,
      leave every other tweet counter alone and never touch a video like. */
  lemma {:induction false} LikeTweetTimesCounts(s: Store, caller: Id, tweetId: string, n: nat)
    requires IsValidObjectId(tweetId)
    ensures var k := LikeKey(CastObjectId(tweetId).value, caller);
      var s' := LikeTweetTimes(s, caller, tweetId, n);
      && (n > 0 ==> k in s'.tweetLikes && s'.tweetLikes[k] == (if k in s.tweetLikes then s.tweetLikes[k] else 0) + n)
      && (forall other :: other in s.tweetLikes && other != k ==> other in s'.tweetLikes && s'.tweetLikes[other] == s.tweetLikes[other])
      && s'.videoLikes == s.videoLikes
  {
    if n > 0 {
      LikeTweetTimesCounts(s, caller, tweetId, n - 1);
    }
  }
}

=== FILE: playlists.dfy ===
/** src/controllers/playlist.controller.js: playlists are owned sequences of
    video ids. `$push` appends (duplicates allowed), `$pull` removes every
    occurrence, and the per-owner summary counts and sums the referenced
    videos that exist. */
module Playlists {
  import opened Results
  import opened ApiErrors
  import opened Text
  import opened Documents

  predicate Distinct(xs: seq<Id>) {
    forall i, j :: 0 <= i < j < |xs| ==> xs[i] != xs[j]
  }

  /** `$pull: { videos: v }`: every occurrence of `v` goes, the other ids stay
      in their order. */
  function RemoveAll(xs: seq<Id>, v: Id): (r: seq<Id>)
    ensures multiset(r) == multiset(xs)[v := 0]
    ensures v !in r
    decreases |xs|
  {
    if |xs| == 0 then []
    else
      var prefix := xs[..|xs| - 1];
      assert xs == prefix + [xs[|xs| - 1]];
      RemoveAll(prefix, v) + (if xs[|xs| - 1] == v then [] else [xs[|xs| - 1]])
  }

  /** Removal distributes over concatenation, so it keeps the relative order
      of the ids it does not remove. */
  lemma {:induction false} RemoveAllDistributes(a: seq<Id>, b: seq<Id>, v: Id)
    ensures RemoveAll(a + b, v) == RemoveAll(a, v) + RemoveAll(b, v)
    decreases |b|
  {
    if |b| > 0 {
      var b' := b[..|b| - 1];
      assert (a + b)[..|a + b| - 1] == a + b';
      RemoveAllDistributes(a, b', v);
    } else {
      assert a + b == a;
    }
  }

  /** Removing an id that is not in the list changes nothing. */
  lemma {:induction false} RemoveAbsentIsIdentity(xs: seq<Id>, v: Id)
    requires v !in xs
    ensures RemoveAll(xs, v) == xs
    decreases |xs|
  {
    if |xs| > 0 {
      var prefix := xs[..|xs| - 1];
      assert xs == prefix + [xs[|xs| - 1]];
      assert v !in prefix by {
        assert forall x :: x in prefix ==> x in xs;
      }
      RemoveAbsentIsIdentity(prefix, v);
    }
  }

  /** The referenced ids that name an existing video, in list order. */
  function Existing(xs: seq<Id>, videos: map<Id, Video>): (r: seq<Id>)
    ensures forall x :: x in r <==> x in xs && x in videos
    decreases |xs|
  {
    if |xs| == 0 then []
    else
      var prefix := xs[..|xs| - 1];
      assert forall x :: x in xs <==> x in prefix || x == xs[|xs| - 1];
      Existing(prefix, videos) + (if xs[|xs| - 1] in videos then [xs[|xs| - 1]] else [])
  }

  /** Each id once, at its first occurrence. */
  function Dedup(xs: seq<Id>): (r: seq<Id>)
    ensures Distinct(r)
    ensures forall x :: x in r <==> x in xs
    decreases |xs|
  {
    if |xs| == 0 then []
    else
      var prefix := xs[..|xs| - 1];
      assert forall x :: x in xs <==> x in prefix || x == xs[|xs| - 1];
      var d := Dedup(prefix);
      if xs[|xs| - 1] in d then d else d + [xs[|xs| - 1]]
  }

  function Elems(xs: seq<Id>): set<Id> {
    set x | x in xs
  }

  /** A list without repeats has as many elements as its set. */
  lemma {:induction false} DistinctCardinality(xs: seq<Id>)
    requires Distinct(xs)
    ensures |Elems(xs)| == |xs|
    decreases |xs|
  {
    if |xs| > 0 {
      var prefix := xs[..|xs| - 1];
      var last := xs[|xs| - 1];
      assert xs == prefix + [last];
      DistinctCardinality(prefix);
      var before := Elems(prefix);
      assert Elems(xs) == before + {last};
      assert last !in before by {
        forall k | 0 <= k < |prefix|
          ensures prefix[k] != last
        {
          assert prefix[k] == xs[k];
        }
      }
      assert |before + {last}| == |before| + 1;
    }
  }

  function SumViews(ids: seq<Id>, videos: map<Id, Video>): nat
    decreases |ids|
  {
    if |ids| == 0 then 0
    else SumViews(ids[..|ids| - 1], videos) + (if ids[|ids| - 1] in videos then videos[ids[|ids| - 1]].views else 0)
  }

  /** One row of `getUserPlaylists` after `$project`. */
  datatype PlaylistSummary = PlaylistSummary(name: string, description: string, totalVideos: nat, totalViews: nat)

  /** The videos the `$lookup` finds for a playlist: each existing referenced
      video once. */
  function LookedUp(p: Playlist, videos: map<Id, Video>): seq<Id> {
    Dedup(Existing(p.videos, videos))
  }

  /** `$addFields`: `totalVideos` is the number of distinct existing videos
      the playlist references, `totalViews` the sum of their views. */
  function Summarize(p: Playlist, videos: map<Id, Video>): (r: PlaylistSummary)
    ensures r.totalVideos == |set v | v in p.videos && v in videos|
    ensures r.totalViews == SumViews(LookedUp(p, videos), videos)
    ensures r.name == p.name && r.description == p.description
  {
    var found := LookedUp(p, videos);
    DistinctCardinality(found);
    assert Elems(found) == (set v | v in p.videos && v in videos);
    PlaylistSummary(p.name, p.description, |found|, SumViews(found, videos))
  }

  /** Appending a video the playlist already holds changes neither count:
      the lookup sees each video once. */
  lemma AddDuplicateKeepsSummary(p: Playlist, v: Id, videos: map<Id, Video>)
    requires v in p.videos && v in videos
    ensures Summarize(p.(videos := p.videos + [v]), videos) == Summarize(p, videos)
  {
    var xs := p.videos + [v];
    assert xs[..|xs| - 1] == p.videos;
    var e := Existing(xs, videos);
    assert e == Existing(p.videos, videos) + [v];
    assert e[..|e| - 1] == Existing(p.videos, videos);
  }

  /** `createPlaylist`: name and description are required (404); the new
      playlist belongs to the caller and holds no videos. */
  function CreatePlaylist(s: Store, caller: Id, name: Option<string>, description: Option<string>)
    : (r: Result<Step<Id>, Fault>)
    ensures !Truthy(name) || !Truthy(description) ==> r == Reject(404, "Name and Description is required")
    ensures Truthy(name) && Truthy(description) ==>
      && r.Ok? && r.value.reply == s.nextId
      && r.value.store == s.(playlists := s.playlists[s.nextId := Playlist(name.value, description.value, caller, [])],
                             nextId := s.nextId + 1)
  {
    if !Truthy(name) || !Truthy(description) then
      Reject(404, "Name and Description is required")
    else
      Ok(Step(s.(playlists := s.playlists[s.nextId := Playlist(name.value, description.value, caller, [])],
                 nextId := s.nextId + 1), s.nextId))
  }

  /** `getUserPlaylists`: an invalid user id gives 404; otherwise one summary
      for each playlist the user owns, and none for anyone else's. */
  function GetUserPlaylists(s: Store, userId: string): (r: Result<map<Id, PlaylistSummary>, Fault>)
    ensures !IsValidObjectId(userId) ==> r == Reject(404, "userId is invalid")
    ensures IsValidObjectId(userId) ==> r.Ok?
    ensures r.Ok? ==>
      && (forall id :: id in r.value <==> id in s.playlists && s.playlists[id].owner == CastObjectId(userId).value)
      && (forall id :: id in r.value ==> r.value[id] == Summarize(s.playlists[id], s.videos))
  {
    match CastObjectId(userId)
    case None => Reject(404, "userId is invalid")
    case Some(owner) =>
      Ok(map id | id in s.playlists && s.playlists[id].owner == owner :: Summarize(s.playlists[id], s.videos))
  }

  /** `addVideoToPlaylist`. Checks, in order and before writing: invalid ids,
      a missing playlist, a missing video (401 each). Then the video id is
      appended, even when the playlist already holds it. There is no owner
      check. */
  function AddVideoToPlaylist(s: Store, playlistId: string, videoId: string): (r: Result<Step<Id>, Fault>)
    ensures !IsValidObjectId(playlistId) || !IsValidObjectId(videoId) ==>
      r == Reject(401, "playlistId and videoId are invalid")
    ensures (IsValidObjectId(playlistId) && IsValidObjectId(videoId)
             && CastObjectId(playlistId).value !in s.playlists) ==> r == Reject(401, "Playlist doesn't exists")
    ensures (IsValidObjectId(playlistId) && IsValidObjectId(videoId)
             && CastObjectId(playlistId).value in s.playlists
             && CastObjectId(videoId).value !in s.videos) ==> r == Reject(401, "Video doesn't exists")
    ensures r.Ok? <==> (IsValidObjectId(playlistId) && IsValidObjectId(videoId)
                        && CastObjectId(playlistId).value in s.playlists && CastObjectId(videoId).value in s.videos)
    ensures r.Ok? ==> CastObjectId(playlistId).value in r.value.store.playlists
    ensures r.Ok? ==>
      var pid := CastObjectId(playlistId).value;
      var after := r.value.store.playlists[pid].videos;
      && r.value.reply == pid
      && |after| == |s.playlists[pid].videos| + 1
      && after[..|s.playlists[pid].videos|] == s.playlists[pid].videos
      && after[|after| - 1] == CastObjectId(videoId).value
      && r.value.store == s.(playlists := s.playlists[pid := s.playlists[pid].(videos := after)])
  {
    if !IsValidObjectId(playlistId) || !IsValidObjectId(videoId) then
      Reject(401, "playlistId and videoId are invalid")
    else
      var pid := CastObjectId(playlistId).value;
      var vid := CastObjectId(videoId).value;
      if pid !in s.playlists then
        Reject(401, "Playlist doesn't exists")
      else if vid !in s.videos then
        Reject(401, "Video doesn't exists")
      else
        var p := s.playlists[pid];
        Ok(Step(s.(playlists := s.playlists[pid := p.(videos := p.videos + [vid])]), pid))
  }

  /** `removeVideoFromPlaylist`: an empty playlist id gives 404, a malformed
      id a CastError, a missing playlist 404; otherwise every occurrence of
      the video id is pulled. */
  function RemoveVideoFromPlaylist(s: Store, playlistId: string, videoId: string): (r: Result<Step<Id>, Fault>)
    ensures |playlistId| == 0 ==> r == Reject(404, "Playlist doesnt exists")
    ensures |playlistId| > 0 && (!IsValidObjectId(playlistId) || !IsValidObjectId(videoId)) ==>
      r == Fail(Uncaught(CastError))
    ensures (IsValidObjectId(playlistId) && IsValidObjectId(videoId)
             && CastObjectId(playlistId).value !in s.playlists) ==> r == Reject(404, "Video didn't exist in playlist")
    ensures r.Ok? <==> (IsValidObjectId(playlistId) && IsValidObjectId(videoId)
                        && CastObjectId(playlistId).value in s.playlists)
    ensures r.Ok? ==> CastObjectId(playlistId).value in r.value.store.playlists
    ensures r.Ok? ==>
      var pid := CastObjectId(playlistId).value;
      var vid := CastObjectId(videoId).value;
      var after := r.value.store.playlists[pid].videos;
      && after == RemoveAll(s.playlists[pid].videos, vid)
      && vid !in after
      && multiset(after) == multiset(s.playlists[pid].videos)[vid := 0]
      && (vid !in s.playlists[pid].videos ==> r.value.store == s)
      && r.value.store == s.(playlists := s.playlists[pid := s.playlists[pid].(videos := after)])
  {
    if |playlistId| == 0 then
      Reject(404, "Playlist doesnt exists")
    else
      var pid :- CastId(playlistId);
      var vid :- CastId(videoId);
      if pid !in s.playlists then
        Reject(404, "Video didn't exist in playlist")
      else
        var p := s.playlists[pid];
        if vid !in p.videos then
          RemoveAbsentIsIdentity(p.videos, vid);
          assert s.playlists[pid := p] == s.playlists;
          Ok(Step(s, pid))
        else
          Ok(Step(s.(playlists := s.playlists[pid := p.(videos := RemoveAll(p.videos, vid))]), pid))
  }

  /** Adding a video and then removing it leaves the playlist as it would be
      after removing that video from the original list. */
  lemma AddThenRemove(s: Store, playlistId: string, videoId: string)
    requires AddVideoToPlaylist(s, playlistId, videoId).Ok?
    ensures var added := AddVideoToPlaylist(s, playlistId, videoId).value.store;
      var removed := RemoveVideoFromPlaylist(added, playlistId, videoId);
      var pid := CastObjectId(playlistId).value;
      && removed.Ok?
      && removed.value.store.playlists[pid].videos == RemoveAll(s.playlists[pid].videos, CastObjectId(videoId).value)
  {
    var pid := CastObjectId(playlistId).value;
    var xs := s.playlists[pid].videos + [CastObjectId(videoId).value];
    assert xs[..|xs| - 1] == s.playlists[pid].videos;
  }

  /** `updatePlaylist`: an empty id gives 404, a malformed one a CastError, a
      missing playlist 404; otherwise name and description are set (an
      absent one keeps its value) and nothing else changes. */
  function UpdatePlaylist(s: Store, playlistId: string, name: Option<string>, description: Option<string>)
    : (r: Result<Step<Id>, Fault>)
    ensures |playlistId| == 0 ==> r == Reject(404, "Playlist doesnt exists")
    ensures |playlistId| > 0 && !IsValidObjectId(playlistId) ==> r == Fail(Uncaught(CastError))
    ensures IsValidObjectId(playlistId) && CastObjectId(playlistId).value !in s.playlists ==>
      r == Reject(404, "Playlist didnt updated")
    ensures r.Ok? <==> IsValidObjectId(playlistId) && CastObjectId(playlistId).value in s.playlists
    ensures r.Ok? ==>
      var pid := CastObjectId(playlistId).value;
      var p := s.playlists[pid];
      && r.value.reply == pid
      && r.value.store == s.(playlists := s.playlists[pid := p.(
           name := if name.Some? then name.value else p.name,
           description := if description.Some? then description.value else p.description)])
  {
    if |playlistId| == 0 then
      Reject(404, "Playlist doesnt exists")
    else
      var pid :- CastId(playlistId);
      if pid !in s.playlists then
        Reject(404, "Playlist didnt updated")
      else
        var p := s.playlists[pid];
        var p' := p.(name := match name case Some(n) => n case None => p.name,
                     description := match description case Some(d) => d case None => p.description);
        Ok(Step(s.(playlists := s.playlists[pid := p']), pid))
  }

  /** Repeating an update leaves what the first update did. */
  lemma UpdatePlaylistIdempotent(s: Store, playlistId: string, name: Option<string>, description: Option<string>)
    requires UpdatePlaylist(s, playlistId, name, description).Ok?
    ensures var once := UpdatePlaylist(s, playlistId, name, description).value.store;
      UpdatePlaylist(once, playlistId, name, description) == UpdatePlaylist(s, playlistId, name, description)
  {
    var pid := CastObjectId(playlistId).value;
    var once := UpdatePlaylist(s, playlistId, name, description).value.store;
    assert once.playlists[pid := once.playlists[pid]] == once.playlists;
  }

  /** An update that gives neither field writes nothing, under the assumed
      update semantics in which `$set` drops undefined keys. */
  lemma UpdatePlaylistWithoutFieldsKeepsStore(s: Store, playlistId: string)
    requires UpdatePlaylist(s, playlistId, None, None).Ok?
    ensures UpdatePlaylist(s, playlistId, None, None).value.store == s
  {
    var pid := CastObjectId(playlistId).value;
    assert s.playlists[pid := s.playlists[pid]] == s.playlists;
  }

  /** `deletePlaylist`: an empty id gives 404, a malformed one a CastError, a
      missing playlist 404; otherwise exactly that playlist is removed. */
  function DeletePlaylist(s: Store, playlistId: string): (r: Result<Store, Fault>)
    ensures |playlistId| == 0 ==> r == Reject(404, "Playlist doesnt exists")
    ensures |playlistId| > 0 && !IsValidObjectId(playlistId) ==> r == Fail(Uncaught(CastError))
    ensures IsValidObjectId(playlistId) && CastObjectId(playlistId).value !in s.playlists ==>
      r == Reject(404, "Playlist not deleted")
    ensures r.Ok? <==> IsValidObjectId(playlistId) && CastObjectId(playlistId).value in s.playlists
    ensures r.Ok? ==> r.value == s.(playlists := s.playlists - {CastObjectId(playlistId).value})
  {
    if |playlistId| == 0 then
      Reject(404, "Playlist doesnt exists")
    else
      var pid :- CastId(playlistId);
      if pid !in s.playlists then Reject(404, "Playlist not deleted")
      else Ok(s.(playlists := s.playlists - {pid}))
  }

  /** Creating a playlist and deleting it again restores the collection. */
  lemma CreateThenDeleteRestores(s: Store, caller: Id, name: Option<string>, description: Option<string>, newId: string)
    requires Valid(s)
    requires CreatePlaylist(s, caller, name, description).Ok?
    requires CastObjectId(newId) == Some(CreatePlaylist(s, caller, name, description).value.reply)
    ensures var s1 := CreatePlaylist(s, caller, name, description).value.store;
      DeletePlaylist(s1, newId) == Ok(s.(nextId := s1.nextId))
  {
    var s1 := CreatePlaylist(s, caller, name, description).value.store;
    assert s.nextId !in s.playlists;
    assert s1.playlists - {s.nextId} == s.playlists;
  }
}

=== FILE: results.dfy ===
/** The two shapes a handler's answer takes. `Option` marks a request field
    or lookup that may be `undefined`; `Result` is either the handler's value
    or the fault that ended the request, and its three members let `:-` stop
    a handler at the first fault, as a `throw` inside an async route does. */
module Results {

  datatype Option<+T> = None | Some(value: T)

  datatype Result<+T, +E> = Ok(value: T) | Fail(error: E) {

    predicate IsFailure() {
      Fail?
    }

    function PropagateFailure<U>(): Result<U, E>
      requires Fail?
    {
      Fail(error)
    }

    function Extract(): T
      requires Ok?
    {
      value
    }
  }
}

=== FILE: subscriptions.dfy ===
/** `toggleSubscription` (src/controllers/subscription.controller.js): the
    existence of a `(channelId, owner)` record is the subscription state;
    the handler finds it, then deletes it or inserts it. */
module Subscriptions {
  import opened Results
  import opened ApiErrors
  import opened Text
  import opened Documents

  /** `toggleSubscription`. Checks, in order and before any write: an
      invalid channel id, a missing channel, a missing caller (404 each).
      The reply is `subscribed`: whether the pair is recorded afterwards. */
  function ToggleSubscription(s: Store, caller: Id, channelId: string): (r: Result<Step<bool>, Fault>)
    ensures !IsValidObjectId(channelId) ==> r == Reject(404, "ChannelId doesn't exists")
    ensures IsValidObjectId(channelId) && CastObjectId(channelId).value !in s.users ==>
      r == Reject(404, "Channel does not exists")
    ensures IsValidObjectId(channelId) && CastObjectId(channelId).value in s.users && caller !in s.users ==>
      r == Reject(404, "User does not exists")
    ensures r.Ok? <==> IsValidObjectId(channelId) && CastObjectId(channelId).value in s.users && caller in s.users
    ensures r.Ok? ==>
      var e := SubscriptionEdge(CastObjectId(channelId).value, caller);
      var edges := r.value.store.subscriptionEdges;
      && r.value.reply == (e in edges)
      && r.value.reply == (e !in s.subscriptionEdges)
      && (forall other :: other != e ==> (other in edges <==> other in s.subscriptionEdges))
      && r.value.store == s.(subscriptionEdges := edges)
  {
    match CastObjectId(channelId)
    case None => Reject(404, "ChannelId doesn't exists")
    case Some(channel) =>
      if channel !in s.users then
        Reject(404, "Channel does not exists")
      else if caller !in s.users then
        Reject(404, "User does not exists")
      else
        var e := SubscriptionEdge(channel, caller);
        if e in s.subscriptionEdges then
          Ok(Step(s.(subscriptionEdges := s.subscriptionEdges - {e}), false))
        else
          Ok(Step(s.(subscriptionEdges := s.subscriptionEdges + {e}), true))
  }

  /** A subscription creates exactly one record: the set grows by one. An
      unsubscription removes exactly one. */
  lemma ToggleChangesCountByOne(s: Store, caller: Id, channelId: string)
    requires ToggleSubscription(s, caller, channelId).Ok?
    ensures var step := ToggleSubscription(s, caller, channelId).value;
      if step.reply then |step.store.subscriptionEdges| == |s.subscriptionEdges| + 1
      else |step.store.subscriptionEdges| + 1 == |s.subscriptionEdges|
  {
  }

  /** Toggling the same pair twice restores the original store and answers
      the two opposite states. */
  lemma ToggleTwiceRestores(s: Store, caller: Id, channelId: string)
    requires ToggleSubscription(s, caller, channelId).Ok?
    ensures var first := ToggleSubscription(s, caller, channelId).value;
      var second := ToggleSubscription(first.store, caller, channelId);
      second.Ok? && second.value.store == s && second.value.reply == !first.reply
  {
    var first := ToggleSubscription(s, caller, channelId).value;
    var e := SubscriptionEdge(CastObjectId(channelId).value, caller);
    var second := ToggleSubscription(first.store, caller, channelId);
    assert second.value.store.subscriptionEdges == s.subscriptionEdges;
  }
}

=== FILE: text.dfy ===
/** The string tests the handlers apply to request fields: JavaScript
    truthiness, `String.prototype.trim`, `toLowerCase`, and Mongoose's
    `isValidObjectId` together with the cast from a route parameter to an
    ObjectId. */
module Text {
  import opened Results

  /** `!field` is false: the field is present and not the empty string.
      Request fields are strings or absent; other JSON values are not modelled. */
  predicate Truthy(field: Option<string>) {
    field.Some? && |field.value| > 0
  }

  /** ECMAScript WhiteSpace and LineTerminator code points, the set `trim`
      strips. */
  predicate IsJsWhitespace(c: char) {
    || c == '\t' || c == '\n' || c == '\U{000B}' || c == '\U{000C}' || c == '\r'
    || c == ' ' || c == '\U{00A0}' || c == '\U{1680}'
    || ('\U{2000}' <= c <= '\U{200A}')
    || c == '\U{2028}' || c == '\U{2029}' || c == '\U{202F}' || c == '\U{205F}'
    || c == '\U{3000}' || c == '\U{FEFF}'
  }

  /** Drops leading whitespace: the result is the suffix that starts at the
      first non-whitespace character. */
  function TrimStart(s: string): (r: string)
    ensures |r| <= |s| && r == s[|s| - |r|..]
    ensures forall i :: 0 <= i < |s| - |r| ==> IsJsWhitespace(s[i])
    ensures |r| > 0 ==> !IsJsWhitespace(r[0])
    decreases |s|
  {
    if |s| > 0 && IsJsWhitespace(s[0]) then TrimStart(s[1..]) else s
  }

  /** Drops trailing whitespace: the result is the prefix that ends at the
      last non-whitespace character. */
  function TrimEnd(s: string): (r: string)
    ensures |r| <= |s| && r == s[..|r|]
    ensures forall i :: |r| <= i < |s| ==> IsJsWhitespace(s[i])
    ensures |r| > 0 ==> !IsJsWhitespace(r[|r| - 1])
    decreases |s|
  {
    if |s| > 0 && IsJsWhitespace(s[|s| - 1]) then TrimEnd(s[..|s| - 1]) else s
  }

  function Trim(s: string): string {
    TrimEnd(TrimStart(s))
  }

  /** `s.trim() === ""` holds exactly when every character of `s` is
      whitespace (the empty string included). */
  predicate IsBlank(s: string): (b: bool)
    ensures b <==> forall i :: 0 <= i < |s| ==> IsJsWhitespace(s[i])
  {
    Trim(s) == []
  }

  /** `toLowerCase` on the ASCII letters; the rest of Unicode case mapping is
      not modelled. */
  function LowerChar(c: char): (d: char)
    ensures 'A' <= c <= 'Z' ==> 'a' <= d <= 'z'
    ensures !('A' <= c <= 'Z') ==> d == c
    ensures !('A' <= d <= 'Z')
  {
    if 'A' <= c <= 'Z' then (c as int + 32) as char else c
  }

  function ToLower(s: string): (r: string)
    ensures |r| == |s|
    ensures forall i :: 0 <= i < |s| ==> r[i] == LowerChar(s[i])
  {
    seq(|s|, i requires 0 <= i < |s| => LowerChar(s[i]))
  }

  /** Lowering twice is lowering once: a stored (already lowered) username
      is its own lookup key. */
  lemma ToLowerIdempotent(s: string)
    ensures ToLower(ToLower(s)) == ToLower(s)
  {
    var once := ToLower(s);
    var twice := ToLower(once);
    forall i | 0 <= i < |s|
      ensures twice[i] == once[i]
    {
      assert !('A' <= once[i] <= 'Z');
    }
  }

  predicate IsHexDigit(c: char) {
    '0' <= c <= '9' || 'a' <= c <= 'f' || 'A' <= c <= 'F'
  }

  function HexDigitValue(c: char): (v: nat)
    requires IsHexDigit(c)
    ensures v < 16
  {
    if '0' <= c <= '9' then c as int - '0' as int
    else if 'a' <= c <= 'f' then c as int - 'a' as int + 10
    else c as int - 'A' as int + 10
  }

  /** The value of a string of hex digits, most significant first. */
  function HexValue(s: string): nat
    requires forall i :: 0 <= i < |s| ==> IsHexDigit(s[i])
  {
    if |s| == 0 then 0 else 16 * HexValue(s[..|s| - 1]) + HexDigitValue(s[|s| - 1])
  }

  /** `mongoose.isValidObjectId` on a string: a 24-digit hex string. */
  predicate IsValidObjectId(p: string) {
    |p| == 24 && forall i :: 0 <= i < |p| ==> IsHexDigit(p[i])
  }

  /** The cast Mongoose applies to a string used as an ObjectId: it succeeds on
      exactly the strings `isValidObjectId` accepts. */
  function CastObjectId(p: string): (r: Option<nat>)
    ensures r.Some? <==> IsValidObjectId(p)
  {
    if IsValidObjectId(p) then Some(HexValue(p)) else None
  }
}

=== FILE: tweets.dfy ===
/** src/controllers/tweet.controller.js: short posts owned by a user and
    listed newest first. */
module Tweets {
  import opened Results
  import opened ApiErrors
  import opened Text
  import opened Documents

  /** `createTweet`: content is required (401); the tweet belongs to the
      caller and carries the creation time `now`, which the clock supplies. */
  function CreateTweet(s: Store, caller: Id, content: Option<string>, now: int): (r: Result<Step<Id>, Fault>)
    ensures !Truthy(content) ==> r == Reject(401, "Write something in content...")
    ensures r.Ok? <==> Truthy(content)
    ensures r.Ok? ==>
      && r.value.reply == s.nextId
      && r.value.store == s.(tweets := s.tweets[s.nextId := Tweet(content.value, caller, now)], nextId := s.nextId + 1)
  {
    if !Truthy(content) then Reject(401, "Write something in content...")
    else Ok(Step(s.(tweets := s.tweets[s.nextId := Tweet(content.value, caller, now)], nextId := s.nextId + 1), s.nextId))
  }

  /** Creating a tweet keeps the store invariant and does not reuse an id. */
  lemma CreateTweetKeepsValid(s: Store, caller: Id, content: Option<string>, now: int)
    requires Valid(s) && Truthy(content)
    ensures var r := CreateTweet(s, caller, content, now);
      && Valid(r.value.store)
      && r.value.reply !in s.tweets
  {
  }

  /** One element of the `getUserTweets` reply: the tweet id with the fields
      the final `$project` keeps that the model tracks. */
  datatype TweetRow = TweetRow(id: Id, content: string, createdAt: int)

  /** `$sort: { createdAt: -1 }`: no row is older than a row after it. */
  predicate NewestFirst(rows: seq<TweetRow>) {
    forall i, j :: 0 <= i < j < |rows| ==> rows[i].createdAt >= rows[j].createdAt
  }

  /** The rows `$match: { owner }` selects from the given ids. */
  function RowsOf(tweets: map<Id, Tweet>, ids: set<Id>, owner: Id): set<TweetRow> {
    set id | id in ids && id in tweets && tweets[id].owner == owner :: TweetRow(id, tweets[id].content, tweets[id].createdAt)
  }

  /** A row no younger than every row of a newest-first list can lead it. */
  lemma PrependNewest(head: TweetRow, rest: seq<TweetRow>)
    requires NewestFirst(rest)
    requires forall k :: 0 <= k < |rest| ==> head.createdAt >= rest[k].createdAt
    ensures NewestFirst([head] + rest)
  {
    var out := [head] + rest;
    forall i, j | 0 <= i < j < |out|
      ensures out[i].createdAt >= out[j].createdAt
    {
      if i > 0 {
        assert out[i] == rest[i - 1] && out[j] == rest[j - 1];
      } else {
        assert out[j] == rest[j - 1];
      }
    }
  }

  /** Places a row before the first strictly older one. */
  function InsertNewestFirst(rows: seq<TweetRow>, row: TweetRow): (r: seq<TweetRow>)
    requires NewestFirst(rows)
    ensures NewestFirst(r)
    ensures multiset(r) == multiset(rows) + multiset{row}
    decreases |rows|
  {
    if |rows| == 0 then [row]
    else if rows[0].createdAt <= row.createdAt then
      PrependNewest(row, rows);
      [row] + rows
    else
      var tail := rows[1..];
      assert rows == [rows[0]] + tail;
      var rest := InsertNewestFirst(tail, row);
      assert forall k :: 0 <= k < |rest| ==> rows[0].createdAt >= rest[k].createdAt by {
        forall k | 0 <= k < |rest|
          ensures rows[0].createdAt >= rest[k].createdAt
        {
          assert rest[k] in multiset(rest);
          if rest[k] != row {
            assert rest[k] in multiset(tail);
            var m :| 0 <= m < |tail| && tail[m] == rest[k];
            assert rows[m + 1] == rest[k];
          }
        }
      }
      PrependNewest(rows[0], rest);
      [rows[0]] + rest
  }

  /** `getUserTweets`, with the likes count the pipeline meant to add left
      out: an invalid user id is rejected with status 200; otherwise every
      tweet the user owns appears exactly once, newest first. */
  method GetUserTweets(s: Store, userId: string) returns (r: Result<seq<TweetRow>, Fault>)
    ensures !IsValidObjectId(userId) ==> r == Reject(200, "userId is invalid")
    ensures IsValidObjectId(userId) ==> r.Ok?
    ensures r.Ok? ==>
      && NewestFirst(r.value)
      && multiset(r.value) == multiset(RowsOf(s.tweets, s.tweets.Keys, CastObjectId(userId).value))
  {
    if !IsValidObjectId(userId) {
      return Reject(200, "userId is invalid");
    }
    var owner := CastObjectId(userId).value;
    var remaining := s.tweets.Keys;
    var rows: seq<TweetRow> := [];
    while remaining != {}
      invariant remaining <= s.tweets.Keys
      invariant NewestFirst(rows)
      invariant multiset(rows) == multiset(RowsOf(s.tweets, s.tweets.Keys - remaining, owner))
      decreases |remaining|
    {
      var id :| id in remaining;
      var done := s.tweets.Keys - remaining;
      var row := TweetRow(id, s.tweets[id].content, s.tweets[id].createdAt);
      if s.tweets[id].owner == owner {
        assert RowsOf(s.tweets, done + {id}, owner) == RowsOf(s.tweets, done, owner) + {row};
        assert row !in RowsOf(s.tweets, done, owner);
        rows := InsertNewestFirst(rows, row);
      } else {
        assert RowsOf(s.tweets, done + {id}, owner) == RowsOf(s.tweets, done, owner);
      }
      assert s.tweets.Keys - (remaining - {id}) == done + {id};
      remaining := remaining - {id};
    }
    assert s.tweets.Keys - remaining == s.tweets.Keys;
    r := Ok(rows);
  }

  /** Each owned tweet appears in the reply exactly once, and nothing else
      does. */
  lemma RowsAreOwnedTweets(s: Store, owner: Id, rows: seq<TweetRow>, row: TweetRow)
    requires multiset(rows) == multiset(RowsOf(s.tweets, s.tweets.Keys, owner))
    ensures row in rows <==> (row.id in s.tweets && s.tweets[row.id].owner == owner
                              && row == TweetRow(row.id, s.tweets[row.id].content, s.tweets[row.id].createdAt))
    ensures row in rows ==> multiset(rows)[row] == 1
  {
    assert row in rows <==> row in multiset(rows);
  }

  /** `getUserTweets` as written: `$addFields` takes `$size` of
      `likesDetails`, but the lookup stored its array as `likedDetails`, so
      every matched tweet makes the pipeline fail; only a user with no
      tweets gets a reply, and it is empty. */
  function GetUserTweetsAsWritten(s: Store, userId: string): (r: Result<seq<TweetRow>, Fault>)
    ensures !IsValidObjectId(userId) ==> r == Reject(200, "userId is invalid")
    ensures r.Ok? ==> r.value == []
    ensures (IsValidObjectId(userId) && exists id :: id in s.tweets && s.tweets[id].owner == CastObjectId(userId).value)
            ==> r == Fail(Uncaught(PipelineError))
  {
    match CastObjectId(userId)
    case None => Reject(200, "userId is invalid")
    case Some(owner) =>
      if exists id :: id in s.tweets && s.tweets[id].owner == owner then Fail(Uncaught(PipelineError))
      else Ok([])
  }

  /** A user with one tweet gets a failure from the pipeline as written,
      where the corrected listing returns that tweet. */
  method AsWrittenLosesTweets(s: Store, userId: string, tid: Id)
    returns (asWritten: Result<seq<TweetRow>, Fault>, corrected: Result<seq<TweetRow>, Fault>)
    requires IsValidObjectId(userId)
    requires tid in s.tweets && s.tweets[tid].owner == CastObjectId(userId).value
    ensures asWritten == Fail(Uncaught(PipelineError))
    ensures corrected.Ok? && TweetRow(tid, s.tweets[tid].content, s.tweets[tid].createdAt) in corrected.value
  {
    asWritten := GetUserTweetsAsWritten(s, userId);
    corrected := GetUserTweets(s, userId);
    var row := TweetRow(tid, s.tweets[tid].content, s.tweets[tid].createdAt);
    RowsAreOwnedTweets(s, CastObjectId(userId).value, corrected.value, row);
  }

  /** `updateTweet`: an empty id gives 404, so does missing content; a
      malformed id is a CastError and a missing tweet 404. Only the content
      changes; there is no owner check. */
  function UpdateTweet(s: Store, tweetId: string, content: Option<string>): (r: Result<Step<Id>, Fault>)
    ensures |tweetId| == 0 ==> r == Reject(404, "TweetId is required")
    ensures |tweetId| > 0 && !Truthy(content) ==> r == Reject(404, "content is required")
    ensures |tweetId| > 0 && Truthy(content) && !IsValidObjectId(tweetId) ==> r == Fail(Uncaught(CastError))
    ensures (Truthy(content) && IsValidObjectId(tweetId)
             && CastObjectId(tweetId).value !in s.tweets) ==> r == Reject(404, "Tweet didnt updated ")
    ensures r.Ok? <==> Truthy(content) && IsValidObjectId(tweetId) && CastObjectId(tweetId).value in s.tweets
    ensures r.Ok? ==>
      var tid := CastObjectId(tweetId).value;
      && r.value.reply == tid
      && r.value.store == s.(tweets := s.tweets[tid := s.tweets[tid].(content := content.value)])
  {
    if |tweetId| == 0 then Reject(404, "TweetId is required")
    else if !Truthy(content) then Reject(404, "content is required")
    else
      var tid :- CastId(tweetId);
      if tid !in s.tweets then Reject(404, "Tweet didnt updated ")
      else Ok(Step(s.(tweets := s.tweets[tid := s.tweets[tid].(content := content.value)]), tid))
  }

  /** An update keeps the tweet's owner and creation time, so it keeps the
      tweet's place in its owner's listing. */
  lemma UpdateKeepsOwnerAndTime(s: Store, tweetId: string, content: Option<string>)
    requires UpdateTweet(s, tweetId, content).Ok?
    ensures var s1 := UpdateTweet(s, tweetId, content).value.store;
      && s1.tweets.Keys == s.tweets.Keys
      && forall id :: id in s.tweets ==>
           s1.tweets[id].owner == s.tweets[id].owner && s1.tweets[id].createdAt == s.tweets[id].createdAt
  {
  }

  /** `deleteTweet`: an empty id gives 404, a malformed one a CastError, a
      missing tweet 404; otherwise exactly that tweet is removed. */
  function DeleteTweet(s: Store, tweetId: string): (r: Result<Store, Fault>)
    ensures |tweetId| == 0 ==> r == Reject(404, "TweetId is required")
    ensures |tweetId| > 0 && !IsValidObjectId(tweetId) ==> r == Fail(Uncaught(CastError))
    ensures IsValidObjectId(tweetId) && CastObjectId(tweetId).value !in s.tweets ==>
      r == Reject(404, "Tweet didnt deleted")
    ensures r.Ok? <==> IsValidObjectId(tweetId) && CastObjectId(tweetId).value in s.tweets
    ensures r.Ok? ==> r.value == s.(tweets := s.tweets - {CastObjectId(tweetId).value})
  {
    if |tweetId| == 0 then Reject(404, "TweetId is required")
    else
      var tid :- CastId(tweetId);
      if tid !in s.tweets then Reject(404, "Tweet didnt deleted")
      else Ok(s.(tweets := s.tweets - {tid}))
  }

  /** Creating a tweet and deleting it by its new id restores the tweets. */
  lemma CreateThenDeleteRestores(s: Store, caller: Id, content: Option<string>, now: int, newId: string)
    requires Valid(s) && Truthy(content)
    requires CastObjectId(newId) == Some(s.nextId)
    ensures var s1 := CreateTweet(s, caller, content, now).value.store;
      DeleteTweet(s1, newId) == Ok(s.(nextId := s1.nextId))
  {
    var s1 := CreateTweet(s, caller, content, now).value.store;
    assert s.nextId !in s.tweets;
    assert s1.tweets - {s.nextId} == s.tweets;
  }
}

=== FILE: users.dfy ===
/** src/controllers/user.controller.js: registration, login, logout, refresh
    token rotation, account details and the channel profile. Signing and
    verifying JWTs and hashing passwords are opaque: issued tokens come from
    the store's serial counter and a password check is equality with the
    stored credential. */
module Users {
  import opened Results
  import opened ApiErrors
  import opened Text
  import opened Documents

  datatype TokenPair = TokenPair(accessToken: Token, refreshToken: Token)

  const GenerateFailedMessage: string := "Something went wrong while generating refresh and access Token"

  /** True when `t` is in some user's refresh-token slot. */
  predicate IsStoredToken(s: Store, t: Token) {
    exists id :: id in s.users && s.users[id].refreshToken == Some(t)
  }

  // ---------------------------------------------------------------------
  // Token generation (lines 9-28)
  // ---------------------------------------------------------------------

  /** `generateAccessAndRefreshToken`: signs a fresh pair for the user and
      overwrites the user's refresh-token slot with the refresh token it
      returns. A missing user makes the body throw, which the `catch` turns
      into a 500. */
  function GenerateAccessAndRefreshToken(s: Store, userId: Id): (r: Result<Step<TokenPair>, Fault>)
    ensures userId !in s.users ==> r == Reject(500, GenerateFailedMessage)
    ensures userId in s.users ==> r.Ok?
    ensures r.Ok? ==>
      var pair := r.value.reply;
      var s' := r.value.store;
      && pair.accessToken.kind == AccessKind && pair.accessToken.subject == userId
      && pair.refreshToken.kind == RefreshKind && pair.refreshToken.subject == userId
      && s'.users.Keys == s.users.Keys
      && s'.users[userId] == s.users[userId].(refreshToken := Some(pair.refreshToken))
      && (forall id :: id in s.users && id != userId ==> s'.users[id] == s.users[id])
      && s' == s.(users := s'.users, nextSerial := s'.nextSerial)
    ensures r.Ok? && Valid(s) ==> Valid(r.value.store) && !IsStoredToken(s, r.value.reply.refreshToken)
  {
    if userId !in s.users then
      Reject(500, GenerateFailedMessage)
    else
      var accessToken := Token(AccessKind, userId, s.nextSerial);
      var refreshToken := Token(RefreshKind, userId, s.nextSerial);
      var user := s.users[userId].(refreshToken := Some(refreshToken));
      Ok(Step(s.(users := s.users[userId := user], nextSerial := s.nextSerial + 1), TokenPair(accessToken, refreshToken)))
  }

  // ---------------------------------------------------------------------
  // Registration (lines 30-111)
  // ---------------------------------------------------------------------

  datatype RegisterForm = RegisterForm(
    fullName: Option<string>,
    email: Option<string>,
    password: Option<string>,
    username: Option<string>
  )

  /** `field?.trim() === ""`: a present field that is all whitespace. An
      absent field is not blank. */
  predicate BlankField(field: Option<string>) {
    field.Some? && IsBlank(field.value)
  }

  predicate AnyBlankField(f: RegisterForm) {
    BlankField(f.fullName) || BlankField(f.email) || BlankField(f.password) || BlankField(f.username)
  }

  /** The `$or: [{ username }, { email }]` filter on one user. A clause whose
      value is absent matches no stored user. */
  predicate MatchesUsernameOrEmail(u: User, username: Option<string>, email: Option<string>) {
    (username.Some? && u.username == username.value) || (email.Some? && u.email == email.value)
  }

  predicate AnyUserMatches(users: map<Id, User>, username: Option<string>, email: Option<string>) {
    exists id :: id in users && MatchesUsernameOrEmail(users[id], username, email)
  }

  /** The document `User.create` inserts (lines 84-91): the username
      lowercased, the avatar's URL, the cover image's URL or "" when there is
      no cover file or its upload failed, and no refresh token. */
  function NewUser(form: RegisterForm, avatar: Upload, coverPath: Option<string>, coverUpload: Option<Upload>): (u: User)
    requires form.fullName.Some? && form.email.Some? && form.password.Some? && form.username.Some?
    ensures u.username == ToLower(form.username.value)
    ensures u.email == form.email.value && u.fullName == form.fullName.value && u.password == form.password.value
    ensures u.avatar == avatar.url && u.refreshToken == None
    ensures coverPath.Some? && coverUpload.Some? ==> u.coverImage == coverUpload.value.url
    ensures coverPath.None? || coverUpload.None? ==> u.coverImage == ""
  {
    var coverImage := if coverPath.Some? && coverUpload.Some? then coverUpload.value.url else "";
    User(ToLower(form.username.value), form.email.value, form.fullName.value, form.password.value, avatar.url, coverImage, None)
  }

  /** `registerUser`. Checks, in order: a blank field (400), an existing user
      with the username as given or the email (409), a missing avatar file or
      failed avatar upload (400). The stored username is lowercased; with the
      unique indexes on username and email, a lowercased username that is
      already stored fails the insert. `avatarUpload` and `coverUpload` are
      what the upload service returned for the two files. */
  function RegisterUser(
    s: Store, form: RegisterForm,
    avatarPath: Option<string>, coverPath: Option<string>,
    avatarUpload: Option<Upload>, coverUpload: Option<Upload>
  ): (r: Result<Step<Id>, Fault>)
    ensures AnyBlankField(form) ==> r == Reject(400, "All fields are required")
    ensures !AnyBlankField(form) && AnyUserMatches(s.users, form.username, form.email) ==>
      r == Reject(409, "User with email or username already exists")
    ensures !AnyBlankField(form) && !AnyUserMatches(s.users, form.username, form.email)
      && (avatarPath.None? || avatarUpload.None?)
      ==> r == Reject(400, "Avatar file is required")
    ensures r.Ok? <==>
      && !AnyBlankField(form) && !AnyUserMatches(s.users, form.username, form.email)
      && avatarPath.Some? && avatarUpload.Some?
      && form.fullName.Some? && form.email.Some? && form.password.Some? && form.username.Some?
      && !UsernameTaken(s.users, ToLower(form.username.value))
    ensures r.Ok? ==> r.value.reply == s.nextId
    ensures r.Ok? ==>
      r.value.store == s.(users := s.users[s.nextId := NewUser(form, avatarUpload.value, coverPath, coverUpload)],
                          nextId := s.nextId + 1)
  {
    if AnyBlankField(form) then
      Reject(400, "All fields are required")
    else if AnyUserMatches(s.users, form.username, form.email) then
      Reject(409, "User with email or username already exists")
    else if avatarPath.None? || avatarUpload.None? then
      Reject(400, "Avatar file is required")
    else if form.username.None? then
      Fail(Uncaught(TypeError))
    else if form.fullName.None? || form.email.None? || form.password.None? then
      Fail(Uncaught(ValidationError))
    else if UsernameTaken(s.users, ToLower(form.username.value)) then
      Fail(Uncaught(DuplicateKey))
    else
      var user := NewUser(form, avatarUpload.value, coverPath, coverUpload);
      var id := s.nextId;
      Ok(Step(s.(users := s.users[id := user], nextId := s.nextId + 1), id))
  }

  /** Registration inserts under a fresh id and keeps the store invariant. */
  lemma RegisterKeepsValid(
    s: Store, form: RegisterForm,
    avatarPath: Option<string>, coverPath: Option<string>,
    avatarUpload: Option<Upload>, coverUpload: Option<Upload>
  )
    requires Valid(s)
    requires RegisterUser(s, form, avatarPath, coverPath, avatarUpload, coverUpload).Ok?
    ensures var step := RegisterUser(s, form, avatarPath, coverPath, avatarUpload, coverUpload).value;
      step.reply !in s.users && Valid(step.store)
  {
    InsertUserKeepsValid(s, NewUser(form, avatarUpload.value, coverPath, coverUpload));
  }

  /** The duplicate check uses the username as given while the stored one is
      lowercased: a mixed-case spelling of a taken username passes the 409
      check and is refused by the unique index instead. */
  lemma RegisterMixedCaseDuplicate(
    s: Store, form: RegisterForm,
    avatarPath: Option<string>, coverPath: Option<string>,
    avatarUpload: Option<Upload>, coverUpload: Option<Upload>
  )
    requires form.fullName.Some? && form.email.Some? && form.password.Some? && form.username.Some?
    requires !AnyBlankField(form) && avatarPath.Some? && avatarUpload.Some?
    requires !AnyUserMatches(s.users, form.username, form.email)
    requires UsernameTaken(s.users, ToLower(form.username.value))
    ensures RegisterUser(s, form, avatarPath, coverPath, avatarUpload, coverUpload) == Fail(Uncaught(DuplicateKey))
    ensures form.username.value != ToLower(form.username.value)
  {
  }

  // ---------------------------------------------------------------------
  // Login (lines 113-175)
  // ---------------------------------------------------------------------

  datatype LoginReply = LoginReply(user: Id, accessToken: Token, refreshToken: Token)

  /** `loginUser`. Rejects with 404, before any token is generated, in this
      order: neither username nor email given, no user matching either, wrong
      password. `findOne` returns one of the matching users; which one is left
      open. An absent password makes the hash comparison throw. */
  method LoginUser(s: Store, username: Option<string>, email: Option<string>, password: Option<string>)
    returns (r: Result<Step<LoginReply>, Fault>)
    ensures !(Truthy(username) || Truthy(email)) ==> r == Reject(404, "Username or email is required")
    ensures (Truthy(username) || Truthy(email)) && !AnyUserMatches(s.users, username, email) ==>
      r == Reject(404, "User does not exists")
    ensures r == Reject(404, "Password incorrect") ==>
      password.Some? &&
      exists id :: id in s.users && MatchesUsernameOrEmail(s.users[id], username, email) && s.users[id].password != password.value
    ensures (Truthy(username) || Truthy(email)) && password.None? && AnyUserMatches(s.users, username, email) ==>
      r == Fail(Uncaught(HashArgumentError))
    ensures (Truthy(username) || Truthy(email)) && password.Some? && AnyUserMatches(s.users, username, email)
      && (forall id :: id in s.users && MatchesUsernameOrEmail(s.users[id], username, email) ==> s.users[id].password != password.value)
      ==> r == Reject(404, "Password incorrect")
    ensures (Truthy(username) || Truthy(email)) && password.Some? && AnyUserMatches(s.users, username, email)
      && (forall id :: id in s.users && MatchesUsernameOrEmail(s.users[id], username, email) ==> s.users[id].password == password.value)
      ==> r.Ok?
    ensures r.Ok? ==>
      var id := r.value.reply.user;
      var s' := r.value.store;
      && (Truthy(username) || Truthy(email))
      && id in s.users && MatchesUsernameOrEmail(s.users[id], username, email)
      && password == Some(s.users[id].password)
      && id in s'.users
      && s'.users[id] == s.users[id].(refreshToken := Some(r.value.reply.refreshToken))
      && r.value.reply.refreshToken.subject == id && r.value.reply.accessToken.subject == id
      && (forall other :: other in s.users && other != id ==> other in s'.users && s'.users[other] == s.users[other])
      && s' == s.(users := s'.users, nextSerial := s'.nextSerial)
    ensures r.Ok? && Valid(s) ==> Valid(r.value.store) && !IsStoredToken(s, r.value.reply.refreshToken)
  {
    if !(Truthy(username) || Truthy(email)) {
      return Reject(404, "Username or email is required");
    }
    if !AnyUserMatches(s.users, username, email) {
      return Reject(404, "User does not exists");
    }
    var id :| id in s.users && MatchesUsernameOrEmail(s.users[id], username, email);
    if password.None? {
      return Fail(Uncaught(HashArgumentError));
    }
    if s.users[id].password != password.value {
      return Reject(404, "Password incorrect");
    }
    var step := GenerateAccessAndRefreshToken(s, id);
    var pair := step.value.reply;
    return Ok(Step(step.value.store, LoginReply(id, pair.accessToken, pair.refreshToken)));
  }

  // ---------------------------------------------------------------------
  // Logout (lines 177-201)
  // ---------------------------------------------------------------------

  /** `logoutUser`: `$unset` of the caller's refresh-token slot. A caller id
      with no document updates nothing; the reply is the same either way. */
  function LogoutUser(s: Store, caller: Id): (s': Store)
    ensures s'.users.Keys == s.users.Keys
    ensures caller in s.users ==> s'.users[caller] == s.users[caller].(refreshToken := None)
    ensures forall id :: id in s.users && id != caller ==> s'.users[id] == s.users[id]
    ensures s' == s.(users := s'.users)
    ensures Valid(s) ==> Valid(s')
  {
    if caller in s.users then
      s.(users := s.users[caller := s.users[caller].(refreshToken := None)])
    else s
  }

  // ---------------------------------------------------------------------
  // Refresh (lines 203-257)
  // ---------------------------------------------------------------------

  /** A refresh token as presented in a cookie or the body: one the server
      signed, or any other string. */
  datatype Credential = Issued(token: Token) | Forged(text: string)

  /** The credential is truthy: a signed token, or a non-empty string. */
  predicate Presented(c: Option<Credential>) {
    c.Some? && (c.value.Issued? || |c.value.text| > 0)
  }

  /** `req.cookies.refreshToken || req.body.refreshToken`. */
  function IncomingToken(cookie: Option<Credential>, body: Option<Credential>): Option<Credential> {
    if Presented(cookie) then cookie else body
  }

  /** `jwt.verify` with the refresh secret. An access token was signed with
      another secret; `expired` says whether the clock is past the token's
      expiry. The reasons are the jsonwebtoken library's messages. */
  function VerifyRefreshToken(c: Credential, expired: bool): (r: Result<Id, Fault>)
    ensures r.Ok? <==> c.Issued? && c.token.kind == RefreshKind && !expired
    ensures r.Ok? ==> r.value == c.token.subject
    ensures r.Fail? ==> r.error.Uncaught? && r.error.cause.JwtError?
  {
    match c
    case Forged(_) => Fail(Uncaught(JwtError("jwt malformed")))
    case Issued(t) =>
      if t.kind != RefreshKind then Fail(Uncaught(JwtError("invalid signature")))
      else if expired then Fail(Uncaught(JwtError("jwt expired")))
      else Ok(t.subject)
  }

  /** Lines 215-241 without the `catch`: verify, find the user, compare the
      presented token with the slot, rotate the slot. */
  function RefreshTryBlock(s: Store, c: Credential, expired: bool): Result<Step<TokenPair>, Fault> {
    var subject :- VerifyRefreshToken(c, expired);
    if subject !in s.users then
      Reject(401, "Invalid refresh token")
    else if Some(c.token) != s.users[subject].refreshToken then
      Reject(401, "Refresh token is expired or used")
    else
      GenerateAccessAndRefreshToken(s, subject)
  }

  /** The `catch` of lines 254-256: whatever was thrown is rethrown as a 404
      that keeps its message. */
  function RethrowAs404<T>(f: Fault): (r: Result<T, Fault>)
    ensures |MessageOf(f)| > 0 ==> r == Reject(404, MessageOf(f))
    ensures |MessageOf(f)| == 0 ==> r == Reject(404, "Invalid Refresh Token")
  {
    var m := MessageOf(f);
    Reject(404, if |m| > 0 then m else "Invalid Refresh Token")
  }

  /** The session part of `refreshAccessToken`: no token gives 401 before any
      verification; every failure inside the `try` becomes a 404 with the same
      message; success requires the presented token to equal the stored slot,
      and rotates the slot to a token that differs from the presented one. */
  function RotateRefreshToken(s: Store, cookie: Option<Credential>, body: Option<Credential>, expired: bool)
    : (r: Result<Step<TokenPair>, Fault>)
    ensures !Presented(IncomingToken(cookie, body)) ==> r == Reject(401, "Unauthorized request")
    ensures Presented(IncomingToken(cookie, body)) && r.Fail? ==>
      r.error.Thrown? && r.error.error.statusCode == 404
    ensures
      var c := IncomingToken(cookie, body);
      Presented(c) && VerifyRefreshToken(c.value, expired).Ok? && c.value.token.subject !in s.users ==>
        r == Reject(404, "Invalid refresh token")
    ensures
      var c := IncomingToken(cookie, body);
      Presented(c) && VerifyRefreshToken(c.value, expired).Ok? && c.value.token.subject in s.users
        && s.users[c.value.token.subject].refreshToken != Some(c.value.token) ==>
        r == Reject(404, "Refresh token is expired or used")
    ensures r.Ok? <==>
      var c := IncomingToken(cookie, body);
      && Presented(c) && c.value.Issued? && c.value.token.kind == RefreshKind && !expired
      && c.value.token.subject in s.users
      && s.users[c.value.token.subject].refreshToken == Some(c.value.token)
    ensures r.Ok? ==>
      var t := IncomingToken(cookie, body).value.token;
      var s' := r.value.store;
      && r.value.reply.refreshToken.subject == t.subject
      && s'.users.Keys == s.users.Keys
      && s'.users[t.subject] == s.users[t.subject].(refreshToken := Some(r.value.reply.refreshToken))
      && (forall id :: id in s.users && id != t.subject ==> s'.users[id] == s.users[id])
      && s' == s.(users := s'.users, nextSerial := s'.nextSerial)
    ensures r.Ok? && Valid(s) ==>
      Valid(r.value.store) && r.value.reply.refreshToken != IncomingToken(cookie, body).value.token
  {
    var c := IncomingToken(cookie, body);
    if !Presented(c) then
      Reject(401, "Unauthorized request")
    else
      match RefreshTryBlock(s, c.value, expired)
      case Ok(step) => Ok(step)
      case Fail(f) => RethrowAs404(f)
  }

  /** The body `refreshAccessToken` sends. `refreshToken: None` is the
      `undefined` the handler sends when it reads a property the generator
      never returns. */
  datatype RefreshReply = RefreshReply(accessToken: Token, refreshToken: Option<Token>)

  /** `refreshAccessToken` as written: line 240 destructures
      `newRefreshToken`, which `generateAccessAndRefreshToken` does not
      return, so the reply (cookie and body) carries no refresh token while
      the slot has been rotated. */
  function RefreshAccessTokenAsWritten(s: Store, cookie: Option<Credential>, body: Option<Credential>, expired: bool)
    : (r: Result<Step<RefreshReply>, Fault>)
    ensures r.Ok? ==> r.value.reply.refreshToken == None
    ensures r.Ok? <==> RotateRefreshToken(s, cookie, body, expired).Ok?
  {
    var step :- RotateRefreshToken(s, cookie, body, expired);
    Ok(Step(step.store, RefreshReply(step.reply.accessToken, None)))
  }

  /** As written, a successful refresh ends the session: the client receives
      no refresh token, and the one it presented is no longer in the slot, so
      nothing it holds can refresh again. */
  lemma RefreshAsWrittenStrandsClient(s: Store, cookie: Option<Credential>, body: Option<Credential>, expired: bool, c: Credential)
    requires Valid(s)
    requires RefreshAccessTokenAsWritten(s, cookie, body, expired).Ok?
    requires c == IncomingToken(cookie, body).value
    ensures var s' := RefreshAccessTokenAsWritten(s, cookie, body, expired).value.store;
      RotateRefreshToken(s', Some(c), None, expired) == Reject(404, "Refresh token is expired or used")
  {
  }

  /** `refreshAccessToken` with the reply carrying the token that was
      generated and stored. */
  function RefreshAccessToken(s: Store, cookie: Option<Credential>, body: Option<Credential>, expired: bool)
    : (r: Result<Step<RefreshReply>, Fault>)
    ensures r.Ok? <==> RotateRefreshToken(s, cookie, body, expired).Ok?
    ensures r.Ok? ==>
      var t := IncomingToken(cookie, body).value.token;
      r.value.reply.refreshToken.Some? && t.subject in r.value.store.users
      && r.value.store.users[t.subject].refreshToken == r.value.reply.refreshToken
  {
    var step :- RotateRefreshToken(s, cookie, body, expired);
    Ok(Step(step.store, RefreshReply(step.reply.accessToken, Some(step.reply.refreshToken))))
  }

  /** With the corrected reply the client can keep refreshing: the token it
      receives is accepted by the next refresh. */
  lemma RefreshReplyRefreshesAgain(s: Store, cookie: Option<Credential>, body: Option<Credential>)
    requires Valid(s)
    requires RefreshAccessToken(s, cookie, body, false).Ok?
    ensures var step := RefreshAccessToken(s, cookie, body, false).value;
      RefreshAccessToken(step.store, Some(Issued(step.reply.refreshToken.value)), None, false).Ok?
  {
  }

  // ---------------------------------------------------------------------
  // Session lifecycle properties
  // ---------------------------------------------------------------------

  /** After logout no token naming the user refreshes: the slot is unset, so
      the equality check fails. */
  lemma LogoutRevokesRefresh(s: Store, caller: Id, c: Credential, expired: bool)
    requires c.Issued? && c.token.subject == caller
    ensures RotateRefreshToken(LogoutUser(s, caller), Some(c), None, expired).Fail?
  {
  }

  /** Anti-replay: once a refresh has rotated the slot, presenting the same
      token again fails with 404. */
  lemma RotatedTokenIsRejected(s: Store, c: Credential, expired: bool)
    requires Valid(s)
    requires RotateRefreshToken(s, Some(c), None, expired).Ok?
    ensures var s' := RotateRefreshToken(s, Some(c), None, expired).value.store;
      RotateRefreshToken(s', Some(c), None, expired) == Reject(404, "Refresh token is expired or used")
  {
  }

  /** The login, refresh, replay scenario: the token from login refreshes
      once, the token that refresh returns is the new slot, and the login
      token is refused afterwards. */
  method LoginRefreshReplay(s: Store, username: Option<string>, email: Option<string>, password: Option<string>)
    returns (replay: Result<Step<TokenPair>, Fault>)
    requires Valid(s)
    requires Truthy(username) || Truthy(email)
    requires password.Some? && AnyUserMatches(s.users, username, email)
    requires forall id :: id in s.users && MatchesUsernameOrEmail(s.users[id], username, email) ==> s.users[id].password == password.value
    ensures replay == Reject(404, "Refresh token is expired or used")
  {
    var login := LoginUser(s, username, email, password);
    var t1 := login.value.reply.refreshToken;
    var s1 := login.value.store;
    var refresh := RotateRefreshToken(s1, Some(Issued(t1)), None, false);
    RotatedTokenIsRejected(s1, Issued(t1), false);
    replay := RotateRefreshToken(refresh.value.store, Some(Issued(t1)), None, false);
  }

  // ---------------------------------------------------------------------
  // Account details (lines 291-317)
  // ---------------------------------------------------------------------

  /** `updateAccountDetails`: both fields are required (400); the caller's
      document gets exactly these two fields. A caller with no document gets a
      null user and no write; an email held by another user is refused by the
      unique index. */
  function UpdateAccountDetails(s: Store, caller: Id, fullName: Option<string>, email: Option<string>)
    : (r: Result<Step<Option<Id>>, Fault>)
    ensures !Truthy(fullName) || !Truthy(email) ==> r == Reject(400, "All fields are required")
    ensures Truthy(fullName) && Truthy(email) && caller !in s.users ==> r == Ok(Step(s, None))
    ensures r.Ok? && caller in s.users ==>
      && r.value.reply == Some(caller)
      && r.value.store == s.(users := s.users[caller := s.users[caller].(fullName := fullName.value, email := email.value)])
    ensures (Truthy(fullName) && Truthy(email) && caller in s.users
             && exists id :: id in s.users && id != caller && s.users[id].email == email.value) ==>
      r == Fail(Uncaught(DuplicateKey))
    ensures r.Fail? && Truthy(fullName) && Truthy(email) ==>
      r == Fail(Uncaught(DuplicateKey)) && exists id :: id in s.users && id != caller && s.users[id].email == email.value
    ensures r.Ok? && Valid(s) ==> Valid(r.value.store)
  {
    if !Truthy(fullName) || !Truthy(email) then
      Reject(400, "All fields are required")
    else if caller !in s.users then
      Ok(Step(s, None))
    else if exists id :: id in s.users && id != caller && s.users[id].email == email.value then
      Fail(Uncaught(DuplicateKey))
    else
      Ok(Step(s.(users := s.users[caller := s.users[caller].(fullName := fullName.value, email := email.value)]), Some(caller)))
  }
}

=== FILE: videos.dfy ===
/** src/controllers/video.controller.js: publishing, updating, deleting a
    video and toggling its `isPublished` flag. Uploads are the upload
    service's answers, passed in: `None` is a failed upload. */
module Videos {
  import opened Results
  import opened ApiErrors
  import opened Text
  import opened Documents

  /** The value `$set` leaves in a field, assuming the update semantics of
      Mongoose 7 and later, which drop `undefined` keys from an update: an
      absent field keeps its stored value. */
  function SetIfPresent(field: Option<string>, stored: string): (v: string)
    ensures field.Some? ==> v == field.value
    ensures field.None? ==> v == stored
  {
    match field case Some(x) => x case None => stored
  }

  /** `publishAVideo`. Checks, in order: title and description (404), the
      caller's user document (404), both file paths (404). A failed video
      upload makes line 69 read `duration` of null. The created video is
      owned by the caller and published. New videos have no views. */
  function PublishAVideo(
    s: Store, caller: Id, title: Option<string>, description: Option<string>,
    videoPath: Option<string>, thumbnailPath: Option<string>,
    videoUpload: Option<Upload>, thumbnailUpload: Option<Upload>
  ): (r: Result<Step<Id>, Fault>)
    ensures !Truthy(title) || !Truthy(description) ==> r == Reject(404, "Name and Description doesn't exists")
    ensures Truthy(title) && Truthy(description) && caller !in s.users ==> r == Reject(404, "User doesn't exists")
    ensures Truthy(title) && Truthy(description) && caller in s.users && (videoPath.None? || thumbnailPath.None?) ==>
      r == Reject(404, "VideoFile and Thumbnail doesn't exists ")
    ensures (Truthy(title) && Truthy(description) && caller in s.users
             && videoPath.Some? && thumbnailPath.Some? && videoUpload.None?) ==> r == Fail(Uncaught(TypeError))
    ensures r.Ok? <==> Truthy(title) && Truthy(description) && caller in s.users
                       && videoPath.Some? && thumbnailPath.Some? && videoUpload.Some?
    ensures r.Ok? ==> r.value.reply == s.nextId && s.nextId in r.value.store.videos
    ensures r.Ok? ==>
      var id := r.value.reply;
      var v := r.value.store.videos[id];
      && r.value.store == s.(videos := s.videos[id := v], nextId := s.nextId + 1)
      && v.owner == caller && v.isPublished && v.views == 0
      && v.title == title.value && v.description == description.value
      && v.videoFile == Some(videoUpload.value.url) && v.duration == videoUpload.value.duration
      && v.thumbnail == (if thumbnailUpload.Some? then Some(thumbnailUpload.value.url) else None)
  {
    if !Truthy(title) || !Truthy(description) then
      Reject(404, "Name and Description doesn't exists")
    else if caller !in s.users then
      Reject(404, "User doesn't exists")
    else if videoPath.None? || thumbnailPath.None? then
      Reject(404, "VideoFile and Thumbnail doesn't exists ")
    else if videoUpload.None? then
      Fail(Uncaught(TypeError))
    else
      var thumbnail := match thumbnailUpload case Some(u) => Some(u.url) case None => None;
      var v := Video(title.value, description.value, Some(videoUpload.value.url), thumbnail,
                     videoUpload.value.duration, caller, true, 0);
      Ok(Step(s.(videos := s.videos[s.nextId := v], nextId := s.nextId + 1), s.nextId))
  }

  /** `updateVideo`. Checks, in order: an invalid id, neither title nor
      description, a missing video, a missing thumbnail file (404 each), a
      failed thumbnail upload (400). Then it sets title, description and
      thumbnail and nothing else. There is no owner check. */
  function UpdateVideo(
    s: Store, videoId: string, title: Option<string>, description: Option<string>,
    thumbnailPath: Option<string>, thumbnailUpload: Option<Upload>
  ): (r: Result<Step<Id>, Fault>)
    ensures !IsValidObjectId(videoId) ==> r == Reject(404, "videoId doesn't exist")
    ensures IsValidObjectId(videoId) && !(Truthy(title) || Truthy(description)) ==>
      r == Reject(404, "Title and Description are required")
    ensures (IsValidObjectId(videoId) && (Truthy(title) || Truthy(description))
             && CastObjectId(videoId).value !in s.videos) ==> r == Reject(404, "Video doesn't exists")
    ensures (IsValidObjectId(videoId) && (Truthy(title) || Truthy(description))
             && CastObjectId(videoId).value in s.videos && thumbnailPath.None?) ==>
      r == Reject(404, "Thumbnail is required")
    ensures (IsValidObjectId(videoId) && (Truthy(title) || Truthy(description))
             && CastObjectId(videoId).value in s.videos && thumbnailPath.Some? && thumbnailUpload.None?) ==>
      r == Reject(400, "thumbnail not found")
    ensures r.Ok? <==> (IsValidObjectId(videoId) && (Truthy(title) || Truthy(description))
                        && CastObjectId(videoId).value in s.videos && thumbnailPath.Some? && thumbnailUpload.Some?)
    ensures r.Ok? ==>
      var id := CastObjectId(videoId).value;
      var v := s.videos[id];
      && r.value.reply == id
      && r.value.store == s.(videos := s.videos[id := v.(
           title := SetIfPresent(title, v.title),
           description := SetIfPresent(description, v.description),
           thumbnail := Some(thumbnailUpload.value.url))])
  {
    match CastObjectId(videoId)
    case None => Reject(404, "videoId doesn't exist")
    case Some(id) =>
      if !(Truthy(title) || Truthy(description)) then
        Reject(404, "Title and Description are required")
      else if id !in s.videos then
        Reject(404, "Video doesn't exists")
      else if thumbnailPath.None? then
        Reject(404, "Thumbnail is required")
      else if thumbnailUpload.None? then
        Reject(400, "thumbnail not found")
      else
        var v := s.videos[id];
        var v' := v.(title := SetIfPresent(title, v.title),
                     description := SetIfPresent(description, v.description),
                     thumbnail := Some(thumbnailUpload.value.url));
        Ok(Step(s.(videos := s.videos[id := v']), id))
  }

  /** Updating twice with the same request leaves what updating once did. */
  lemma UpdateVideoIdempotent(
    s: Store, videoId: string, title: Option<string>, description: Option<string>,
    thumbnailPath: Option<string>, thumbnailUpload: Option<Upload>
  )
    requires UpdateVideo(s, videoId, title, description, thumbnailPath, thumbnailUpload).Ok?
    ensures var once := UpdateVideo(s, videoId, title, description, thumbnailPath, thumbnailUpload).value.store;
      UpdateVideo(once, videoId, title, description, thumbnailPath, thumbnailUpload) ==
      UpdateVideo(s, videoId, title, description, thumbnailPath, thumbnailUpload)
  {
    var id := CastObjectId(videoId).value;
    var once := UpdateVideo(s, videoId, title, description, thumbnailPath, thumbnailUpload).value.store;
    var v1 := once.videos[id];
    assert SetIfPresent(title, v1.title) == v1.title;
    assert SetIfPresent(description, v1.description) == v1.description;
    assert once.videos[id := v1] == once.videos;
  }

  /** `deleteVideo`: an empty id gives 404, a malformed one a CastError, a
      missing video 404; otherwise exactly that video is removed. */
  function DeleteVideo(s: Store, videoId: string): (r: Result<Store, Fault>)
    ensures |videoId| == 0 ==> r == Reject(404, "Video doesn't exists")
    ensures |videoId| > 0 && !IsValidObjectId(videoId) ==> r == Fail(Uncaught(CastError))
    ensures IsValidObjectId(videoId) && CastObjectId(videoId).value !in s.videos ==> r == Reject(404, "Video not found")
    ensures r.Ok? <==> IsValidObjectId(videoId) && CastObjectId(videoId).value in s.videos
    ensures r.Ok? ==> r.value == s.(videos := s.videos - {CastObjectId(videoId).value})
  {
    if |videoId| == 0 then
      Reject(404, "Video doesn't exists")
    else
      var id :- CastId(videoId);
      if id !in s.videos then Reject(404, "Video not found")
      else Ok(s.(videos := s.videos - {id}))
  }

  /** Publishing then deleting the new video restores the video collection. */
  lemma PublishThenDeleteRestores(
    s: Store, caller: Id, title: Option<string>, description: Option<string>,
    videoPath: Option<string>, thumbnailPath: Option<string>,
    videoUpload: Option<Upload>, thumbnailUpload: Option<Upload>, newId: string
  )
    requires Valid(s)
    requires PublishAVideo(s, caller, title, description, videoPath, thumbnailPath, videoUpload, thumbnailUpload).Ok?
    requires CastObjectId(newId) ==
      Some(PublishAVideo(s, caller, title, description, videoPath, thumbnailPath, videoUpload, thumbnailUpload).value.reply)
    ensures var s1 := PublishAVideo(s, caller, title, description, videoPath, thumbnailPath, videoUpload, thumbnailUpload).value.store;
      DeleteVideo(s1, newId) == Ok(s.(nextId := s1.nextId))
  {
    var s1 := PublishAVideo(s, caller, title, description, videoPath, thumbnailPath, videoUpload, thumbnailUpload).value.store;
    assert s.nextId !in s.videos;
    assert s1.videos - {s.nextId} == s.videos;
  }

  /** `togglePublishStatus`: a malformed id is a CastError, a missing video
      404, a caller who is not the owner 400; otherwise `isPublished` is
      negated, nothing else changes, and the reply is the new value. */
  function TogglePublishStatus(s: Store, caller: Id, videoId: string): (r: Result<Step<bool>, Fault>)
    ensures !IsValidObjectId(videoId) ==> r == Fail(Uncaught(CastError))
    ensures IsValidObjectId(videoId) && CastObjectId(videoId).value !in s.videos ==> r == Reject(404, "Video not found")
    ensures (IsValidObjectId(videoId) && CastObjectId(videoId).value in s.videos
             && s.videos[CastObjectId(videoId).value].owner != caller) ==>
      r == Reject(400, "You can't toogle publish status as you are not the owner")
    ensures r.Ok? <==> (IsValidObjectId(videoId) && CastObjectId(videoId).value in s.videos
                        && s.videos[CastObjectId(videoId).value].owner == caller)
    ensures r.Ok? ==>
      var id := CastObjectId(videoId).value;
      && r.value.reply == !s.videos[id].isPublished
      && r.value.store == s.(videos := s.videos[id := s.videos[id].(isPublished := r.value.reply)])
  {
    var id :- CastId(videoId);
    if id !in s.videos then
      Reject(404, "Video not found")
    else if s.videos[id].owner != caller then
      Reject(400, "You can't toogle publish status as you are not the owner")
    else
      var published := !s.videos[id].isPublished;
      Ok(Step(s.(videos := s.videos[id := s.videos[id].(isPublished := published)]), published))
  }

  /** Two toggles by the owner restore the original store. */
  lemma TogglePublishTwiceRestores(s: Store, caller: Id, videoId: string)
    requires TogglePublishStatus(s, caller, videoId).Ok?
    ensures var first := TogglePublishStatus(s, caller, videoId).value;
      var second := TogglePublishStatus(first.store, caller, videoId);
      second.Ok? && second.value.store == s && second.value.reply == !first.reply
  {
    var id := CastObjectId(videoId).value;
    var first := TogglePublishStatus(s, caller, videoId).value;
    assert first.store.videos[id := s.videos[id]] == s.videos;
  }
}
